=== FILE: README.md ===
# PySecureTunnel core, modelled in Dafny

PySecureTunnel carries a browser's TCP connections through a mutually
authenticated TLS tunnel. On the client machine a SOCKS5 proxy
(`Socks5ProxyHandler`) accepts a browser connection. It reads an RFC 1928
greeting and a CONNECT request, answers with the fixed success reply and opens
a TLS connection to the tunnel server. It writes a target line
`host:port\n` into that connection and then relays bytes both ways. On the
server, `ForwardingHandler` reads that line one byte at a time up to the line
feed, decodes and strips it, and splits it into host and port. It then opens a
TCP connection to the target and relays bytes both ways.

The model has these modules:

- `Bytes`: octets, `recv`'s truncation, and `int.from_bytes(..., "big")`.
- `Text`: the text operations the target line goes through: Python's
  `strip()`, `split(":")`, `str(n)` and `int()`, and the decimal and
  lower-case hexadecimal formatting inside `inet_ntoa`/`inet_ntop`.
- `Utf8`: `str.encode()` and strict `bytes.decode()`.
- `Inet`: `inet_ntoa` and `inet_ntop(AF_INET6, ...)`.
- `Sockets`: a class `Socket` whose fields the handlers update:
  - `inbound`: all the peer ever sends;
  - `received`: how much of it has been read;
  - `sent`: what was handed to `sendall`;
  - `writes`: the same bytes, one entry per `sendall` call;
  - `writeShut`, `closed`.
- `Relay`: the `pipe`/`_relay` pump. Its text is the same in
  `client/socks5.py:75-97` and `server/forward_handler.py:67-89`.
- `Socks5`: the SOCKS5 session, in two forms:
  - a function of the bytes the browser sends (`ParseSession`);
  - the imperative handler `Socks5.ProxyHandler`, whose `Run` is proved to
    follow that function.
- `ForwardHandler`: the line reader, `_parse_target`, and the imperative
  handler `ForwardHandler.ForwardingHandler`.
- `EndToEnd`: what becomes, on the server, of the target line the SOCKS5 side
  writes.

Two behaviours of the code that its comments and names do not suggest are
modelled as written:

- `_recv_until_newline` reads one byte at a time and stops at the first line
  feed. The leftover it returns is therefore always empty, and the
  `if leftover:` branch of `run` never sends anything
  (`ForwardHandler.LeftoverEmpty`).
- `_parse_target` makes no range check on the port: any integer `int()`
  accepts, negative or above 65535, becomes the port
  (`ForwardHandler.AnyPortAccepted`, `ForwardHandler.PortTextParsed`).

One is not: the SOCKS5 handler uses three reads without checking their length.
RFC 1928 fixes the length of every field of the greeting and the request, so
the model's handler treats a short `recv` as the end of the session. The
handler as written is modelled beside it (see "## Left out" and "## Findings").

## Model

| member | source | states |
|---|---|---|
| `Bytes.BigEndian` | client/socks5.py:53-54 | Two port bytes are read as `high * 256 + low`, and `n` bytes give a value below 256^n. |
| `Text.Lead` | server/forward_handler.py:59 | The count of leading blanks: every character before it is blank, and the one at it, if any, is not. |
| `Text.Trail` | server/forward_handler.py:59 | The count of trailing blanks: every character after the rest is blank, and the last character of the rest, if any, is not. |
| `Text.Trim` | server/forward_handler.py:59 | `strip()` (and the trimming `int()` does) gives a string that neither starts nor ends with a blank, no longer than the input, and with every other character kept as often as in the input. |
| `Text.TrimInfix` | server/forward_handler.py:59 | The trimmed text is the infix of the input after its leading blanks, and everything before and after it is blank: only blanks at the ends are removed. |
| `Text.TrimFixpoint` | server/forward_handler.py:59 | Trimming leaves a string alone exactly when it has no blank at either end. |
| `Text.StripIdempotent` | server/forward_handler.py:64 | Stripping the already stripped line a second time changes nothing. |
| `Text.Split` | server/forward_handler.py:64 | `split(":")` gives one more piece than there are colons; no piece holds a colon; the pieces joined with colons give back the text. |
| `Text.SplitJoin` | server/forward_handler.py:64 | Splitting undoes joining pieces that hold no separator. |
| `Text.Decimal` | client/socks5.py:66 | `str(n)` of a natural number is made of decimal digits only. |
| `Text.NatToStringValue` | client/socks5.py:66 | The digits written for `n` in any base from 2 to 16 have the value `n`. |
| `Text.ParseInt` | server/forward_handler.py:65 | `int()` reads nothing from a text that is blank once trimmed, and a negative value only from a leading minus; `ParseIntForm` gives the exact shape it accepts and the value it reads. |
| `Text.ParseIntForm` | server/forward_handler.py:65 | `int()` accepts a text exactly when, once the white space `int()` discards is trimmed, it is an optional `+` or `-` followed by digit groups, and then reads it as the signed value of the digits. |
| `Text.TabDropped` | server/forward_handler.py:65 | `int()` discards a tab before digit groups. |
| `Text.SeparatorKept` | server/forward_handler.py:65 | `strip()` discards an ASCII file separator (U+001C) before digit groups, but `int()` refuses the text. |
| `Text.DecimalRoundTrip` | server/forward_handler.py:65 | `int(str(n)) == n` for every natural number `n`. |
| `Text.DigitsParsed` | server/forward_handler.py:65 | `int()` reads digit groups (single underscores between digits allowed) as their decimal value. |
| `Text.NegativeRoundTrip` | server/forward_handler.py:65 | `int("-" + str(n)) == -n`: a minus sign is accepted in the port text. |
| `Utf8.Encode` | client/socks5.py:66 | `.encode()`, one character after another. `EncodeLength`, `EncodeConcat` and `EncodeAscii` state its length, that it distributes over concatenation and where line feeds and colons can occur in it; `DecodeEncode` proves strict decoding undoes it. |
| `Utf8.EncodeLength` | client/socks5.py:66 | `.encode()` writes one to four bytes per character: the encoding is never shorter than the text and at most four times as long. |
| `Utf8.EncodeChar` | client/socks5.py:66 | A character encodes to 1 to 4 bytes; an ASCII character to itself; any other character only to bytes of 0x80 and above. |
| `Utf8.DecodeFirst` | server/forward_handler.py:59 | A decoded first character takes 1 to 4 bytes, and those bytes are exactly its encoding. |
| `Utf8.Decode` | client/socks5.py:45 | Strict `decode()` succeeds only on bytes that are the encoding of the text it returns. |
| `Utf8.DecodeFirstEncodeChar` | server/forward_handler.py:59 | The encoding of a character decodes back to that character and its length, whatever follows. |
| `Utf8.DecodeEncode` | server/forward_handler.py:59 | `s.encode().decode() == s` for every string. |
| `Utf8.EncodeConcat` | client/socks5.py:66 | Encoding distributes over concatenation. |
| `Utf8.EncodeAscii` | client/socks5.py:66 | An ASCII byte, the line feed among them, occurs in an encoding exactly when its character occurs in the text. |
| `Inet.DottedQuad` | client/socks5.py:42 | `inet_ntoa` text holds only digits and dots and starts with a digit. |
| `Inet.DottedQuadParsesBack` | client/socks5.py:42 | The dotted-quad text splits at its dots into four parts that `int()` reads back as the four octets. |
| `Inet.ZeroRun` | client/socks5.py:47 | The run of zero groups starting at a position lies inside the address, holds only zero groups, and is followed by a non-zero group or the end: it is the whole run. |
| `Inet.LongestZeroRun` | client/socks5.py:47 | The run found is the whole run of zero groups from its start, no run at or after the starting position is longer, and every run that starts earlier is shorter: it is the first of the longest runs. |
| `Inet.Ipv6Text` | client/socks5.py:47 | `inet_ntop` text holds only lower-case hexadecimal digits and colons, and at least two colons. |
| `Inet.JoinCount` | client/socks5.py:47 | Joining pieces that hold no separator puts exactly one separator between each two of them. |
| `Sockets.Socket.constructor` | server/forward_handler.py:30 | A connection as `create_connection` (or the listener, or `connect_raw`) hands it over has received nothing, sent nothing, and is neither shut nor closed. |
| `Sockets.Socket.Recv` | client/socks5.py:34 | `recv(n)` yields the next `n` pending bytes, or fewer at end of stream, and advances the read position by as many; on a closed socket it fails and yields nothing. |
| `Sockets.Socket.SendAll` | client/socks5.py:31 | `sendall` appends all its bytes to what was sent, and one entry to the socket's log of writes, unless the socket is shut for writing or closed, when it fails and sends nothing. |
| `Sockets.Socket.ShutdownWrite` | client/socks5.py:87 | `shutdown(SHUT_WR)` marks the socket shut for writing unless it is already closed. |
| `Sockets.Socket.Close` | client/socks5.py:73 | `close()` closes the socket; closing twice is harmless. |
| `Relay.Copy` | client/socks5.py:78-82 | The `while True` loop copies the source's pending bytes onto the destination: all of them when the destination is writable, none when it is not, and none when the source is closed. The destination's log of writes only grows, and every `sendall` the loop adds carries 1 to 4096 bytes, the added writes joining to exactly the bytes forwarded. |
| `Relay.Pipe` | client/socks5.py:76-89 | `pipe` is that loop followed by `shutdown(SHUT_WR)` on the destination; it touches nothing else. Its writes are the loop's: each 1 to 4096 bytes, together the bytes forwarded. |
| `Relay.Relay` | client/socks5.py:91-97 | `_relay(a, b)` forwards everything `a` has still to send to `b` and everything `b` sends to `a`, and shuts both for writing. |
| `Socks5.HostText` | client/socks5.py:40-47 | The host text: a domain name's text encodes back to the name; an IPv4 text is dotted decimal without a colon; an IPv6 text has at least two colons. |
| `Socks5.GreetingAt` | client/socks5.py:29-30 | The greeting is the version byte, the method count and that many method bytes; when it is cut short everything is consumed. |
| `Socks5.AddressAt` | client/socks5.py:40-51 | The address that follows a request header has the type the header announces, is well formed and can be written as text; an unknown type reads nothing; complete addresses consume exactly their encoding. |
| `Socks5.DomainAt` | client/socks5.py:43-45 | A domain name is a length byte followed by that many bytes of strict UTF-8, and consumes exactly those. |
| `Socks5.PortAt` | client/socks5.py:53-54 | The port is a 16-bit big-endian number that follows the address; a missing port rejects the request after the greeting reply, with everything consumed. |
| `Socks5.RequestAt` | client/socks5.py:34-54 | The request yields a valid, printable address and a port below 65536, or a rejection after the greeting reply. |
| `Socks5.ParseSession` | client/socks5.py:29-54 | The whole session never consumes more than the client sent, and what it accepts is a valid, printable address and a 16-bit port. |
| `Socks5.Session` | client/socks5.py:29-54 | The session with every read checked for length. `SessionDecodesRequest` and `AcceptedIsRequest` show it accepts exactly the well-formed greeting followed by a well-formed CONNECT request, and reads back its address and port. |
| `Socks5.SessionAsWritten` | client/socks5.py:29-54 | The session as the handler's code reads it, a short `recv` taken as it comes. `AsWrittenDiffersOnlyWhenCut` shows it differs from `Session` only when the stream ends inside a request, never on a request `Session` accepts. |
| `Socks5.TargetLine` | client/socks5.py:66 | The target line ends with a line feed and holds no earlier line feed exactly when the host holds none. |
| `Socks5.SessionDecodesRequest` | client/socks5.py:29-54 | Every well-formed greeting and CONNECT request is decoded to the address and port it carries, consuming the request and nothing after it; a domain that is not UTF-8 is refused before the port is read. |
| `Socks5.GreetingDecoded` | client/socks5.py:29-30 | A complete greeting is read as the methods it offers. |
| `Socks5.RequestDecoded` | client/socks5.py:34-54 | A complete CONNECT request is read as its address and port. |
| `Socks5.AddressAndPortDecoded` | client/socks5.py:40-54 | After a CONNECT header, an address field and two port bytes are read back as the address and the port. |
| `Socks5.AddressDecoded` | client/socks5.py:40-47 | An address field is read back as its address, or refused when it is a name that is not UTF-8. |
| `Socks5.DomainDecoded` | client/socks5.py:44-45 | A length byte and the name after it are read back as the name when it is UTF-8. |
| `Socks5.PortDecoded` | client/socks5.py:53-54 | Two port bytes are read back as the port. |
| `Socks5.AcceptedIsRequest` | client/socks5.py:29-54 | Conversely, whatever the session accepts is, up to the bytes consumed, the encoding of a well-formed request for the address and port accepted. |
| `Socks5.RequestRead` | client/socks5.py:34-54 | An accepted request consumed a CONNECT header, the address bytes and the port bytes, in that order. |
| `Socks5.GreetingAnswered` | client/socks5.py:29-31 | `05 00` is sent exactly when the version byte, the method count and that many method bytes arrive; otherwise the whole stream is consumed. |
| `Socks5.IgnoredBytes` | client/socks5.py:29-40 | Neither the version byte of the greeting, nor the methods offered, nor the reserved byte of the request changes the session. |
| `Socks5.SameGreetingLength` | client/socks5.py:29-30 | Changing the version byte or a method byte leaves the greeting's length, and whether it is complete, as they were. |
| `Socks5.ReservedIgnored` | client/socks5.py:34-40 | The reserved byte of the request is never examined. |
| `Socks5.PortAtFrame` | client/socks5.py:53-54 | The port depends on the bytes from its start onward only. |
| `Socks5.RequestAtFrame` | client/socks5.py:34-54 | The request depends on the bytes from its start onward only. |
| `Socks5.AddressAtFrame` | client/socks5.py:40-47 | The address depends on the bytes from its start onward only. |
| `Socks5.BadHeaderRejected` | client/socks5.py:34-38 | A short header, a version other than 5 or a command other than CONNECT ends the session after the greeting reply, having read at most the four header bytes. |
| `Socks5.BadAddressTypeRejected` | client/socks5.py:48-51 | An address type other than 1, 3 and 4 ends the session after the greeting reply, with no address byte read. |
| `Socks5.AsWrittenDiffersOnlyWhenCut` | client/socks5.py:29-54 | The handler as written and the length-checked session differ only when the client stream ends in the middle of a request, and never on a request the length-checked session accepts. |
| `Socks5.AddressModes` | client/socks5.py:40-47 | Unchecked reads of an address differ from checked ones only when the stream has ended. |
| `Socks5.ShortGreetingAnswered` | client/socks5.py:29-31 | As written, `05 02 00` followed by end of stream still gets `05 00`; the length-checked session refuses it silently. |
| `Socks5.ShortDomainAccepted` | client/socks5.py:43-45 | As written, a domain announced as 5 bytes but cut after 1 is accepted with port 0; the length-checked session refuses it. |
| `Socks5.MissingPortAccepted` | client/socks5.py:53-54 | As written, an IPv4 request without port bytes is accepted with port 0; the length-checked session refuses it. |
| `Socks5.LoopbackConnect` | client/socks5.py:29-54 | The bytes `05 01 00 05 01 00 01 7f 00 00 01 01 bb` are a CONNECT to 127.0.0.1 port 443. |
| `Socks5.LoopbackText` | client/socks5.py:42 | The address 127.0.0.1 is written `127.0.0.1`. |
| `Socks5.ProxyHandler.constructor` | client/socks5.py:18-22 | The handler keeps the browser connection it is given. |
| `Socks5.ProxyHandler.Run` | client/socks5.py:24-73 | `run` follows the length-checked session and closes the browser connection on every path. A refused session, or a tunnel that cannot be opened, leaves the tunnel untouched and the browser connection with the replies sent so far and never shut for writing. An accepted one gives the tunnel the target line followed by everything the browser sends after its request, gives the browser both replies followed by everything the tunnel sends, and leaves both connections shut for writing. |
| `Socks5.ProxyHandler.Conclude` | client/socks5.py:61-73 | After the replies, the tunnel is used only when the request was accepted and the tunnel opened; the browser connection is closed either way. |
| `Socks5.ProxyHandler.Forward` | client/socks5.py:61-68 | Once the tunnel is open it carries the target line followed by everything the browser has still to send; the browser gets everything the tunnel sends; both connections end shut for writing and closed. |
| `Socks5.ProxyHandler.Negotiate` | client/socks5.py:29-58 | Greeting, request and replies consume exactly what the session consumes and send exactly its replies. |
| `Socks5.ProxyHandler.ReadGreeting` | client/socks5.py:29-30 | The imperative greeting read agrees with `GreetingAt` and consumes as much. |
| `Socks5.ProxyHandler.ReadRequest` | client/socks5.py:34-58 | The imperative request read agrees with `RequestAt`, consumes as much, and sends the success reply only for an accepted request. |
| `Socks5.ProxyHandler.ReadAddress` | client/socks5.py:40-51 | The imperative address read agrees with `AddressAt` and consumes as much. |
| `ForwardHandler.LineLength` | server/forward_handler.py:50-55 | The line reader takes bytes up to and including the first line feed, or everything when there is none. |
| `ForwardHandler.LineLengthUnique` | server/forward_handler.py:51-55 | A prefix that ends at the first line feed is exactly what the reader takes. |
| `ForwardHandler.Partition` | server/forward_handler.py:58 | `partition(b"\n")` splits at the first line feed: the part before holds none, and the parts with the line feed give back the data; data without a line feed is all head. |
| `ForwardHandler.LeftoverEmpty` | server/forward_handler.py:49-58 | Because reading stops at the first line feed, the leftover after the partition is always empty. |
| `ForwardHandler.LineText` | server/forward_handler.py:58-59 | The text read from the tunnel is the bytes before the first line feed, decoded and stripped, or nothing when they are not UTF-8. It holds no line feed, and a second `strip()` leaves it unchanged; `LineTextOf` and `LineOfText` pin it to the line's own bytes. |
| `ForwardHandler.LineTextOf` | server/forward_handler.py:49-59 | A line without line feed, a line feed and anything after it is read as that line decoded and stripped, whatever follows. |
| `ForwardHandler.ParseTarget` | server/forward_handler.py:61-65 | `_parse_target` fails for a missing colon exactly when there is no colon, fails the two-way unpack exactly when there are two colons or more, and fails `int()` or succeeds only with exactly one colon; an accepted host holds no colon. |
| `ForwardHandler.ColonsRefused` | server/forward_handler.py:64 | A line with two colons or more is refused by the two-way unpack. |
| `ForwardHandler.ParseTargetAccepted` | server/forward_handler.py:61-65 | An accepted line is, once stripped, a host without colon, a colon and a port text that `int()` reads as the port. |
| `ForwardHandler.TwoParts` | server/forward_handler.py:64 | A text that splits into two parts is the first, a colon and the second, and the first holds no colon. |
| `ForwardHandler.ParseTargetOf` | server/forward_handler.py:61-65 | Conversely, `host:portText` without other colon or surrounding white space is parsed to that host and `int(portText)`, or refused for its port. |
| `ForwardHandler.TargetOf` | server/forward_handler.py:20-26 | What `run` makes of the tunnel's bytes: a line that is not UTF-8 is refused exactly when `LineText` fails, an empty line exactly when the stripped line is empty, and a target comes only from a line with exactly one colon, with a host that holds none. |
| `ForwardHandler.Resolve` | server/forward_handler.py:21-26 | A stripped line is refused as empty exactly when it is empty, for a missing colon exactly when it is non-empty and holds no colon, and by the unpack exactly when it holds two colons or more; a target comes only from exactly one colon. |
| `ForwardHandler.LineOfText` | server/forward_handler.py:49-59 | A text without line feed, encoded and followed by a line feed, is read back as that text stripped. |
| `ForwardHandler.TargetOfText` | server/forward_handler.py:20-26 | The server resolves such a line to the stripped text's target, whatever follows the line feed. |
| `ForwardHandler.NoColonRefused` | server/forward_handler.py:62-63 | A line that is not blank and has no colon is refused for its missing colon. |
| `ForwardHandler.StrippedTargetText` | server/forward_handler.py:64 | `strip()` leaves `host:port` alone when it leaves the host alone. |
| `ForwardHandler.AnyPortAccepted` | server/forward_handler.py:65 | Every natural port number, 65536 and above included, is accepted as written in decimal. |
| `ForwardHandler.DecimalTargetParsed` | server/forward_handler.py:61-65 | `host:str(port)` left alone by `strip()` names that host and port. |
| `ForwardHandler.PortTextParsed` | server/forward_handler.py:65 | Whatever integer `int()` reads from the port text becomes the port, negative ones included. |
| `ForwardHandler.EmptyLineRefused` | server/forward_handler.py:20-24 | A tunnel that ends before any byte, or whose first line is only white space of any kind `strip()` discards (`"\r"` from a CRLF ending among them), opens no connection, whether a line feed or the end of the stream ends that line. |
| `ForwardHandler.SeparatorPortRefused` | server/forward_handler.py:59-65 | `host:` followed by an ASCII file separator and digits survives `strip()` unchanged, but its port text is refused by `int()`, so no connection is made. |
| `ForwardHandler.ForwardingHandler.constructor` | server/forward_handler.py:13-15 | The handler keeps the tunnel connection it is given. |
| `ForwardHandler.ForwardingHandler.Run` | server/forward_handler.py:17-47 | `run` reads exactly the first line and resolves it to `TargetOf`, and closes the tunnel connection on every path. Without a target or a connection nothing else is read or sent and the tunnel connection is never shut for writing. With both, the destination gets everything the tunnel sends after the line, the tunnel gets everything the destination sends, both are shut for writing, and the destination is never closed. |
| `ForwardHandler.ForwardingHandler.Connect` | server/forward_handler.py:29-47 | After the line, the destination is used only when there is a target and a connection; the tunnel connection is closed either way. |
| `ForwardHandler.ForwardingHandler.ReadTarget` | server/forward_handler.py:20-26 | Reading and parsing the line consumes exactly the line, yields `TargetOf` of the tunnel's bytes, and an empty leftover. |
| `ForwardHandler.ForwardingHandler.Forward` | server/forward_handler.py:33-47 | The destination gets the leftover followed by everything the tunnel has still to send, the tunnel everything the destination sends; both are shut for writing, and the tunnel connection is closed. |
| `ForwardHandler.ForwardingHandler.RecvUntilNewline` | server/forward_handler.py:49-59 | `_recv_until_newline` consumes exactly `LineLength` bytes, returns the decoded and stripped line, and an empty leftover. |
| `EndToEnd.TargetLineResolved` | server/forward_handler.py:20-26 | The server resolves the SOCKS5 side's target line to its stripped `host:port` text, whatever the browser sends after it. |
| `EndToEnd.TargetLineRoundTrip` | server/forward_handler.py:61-65 | A host without colon, line feed or surrounding white space, and a 16-bit port, cross the tunnel unchanged. |
| `EndToEnd.ResolveHostPort` | server/forward_handler.py:61-65 | The `host:port` text of such a host is left alone by `strip()` and names that host and port. |
| `EndToEnd.Ipv4TargetRoundTrip` | client/socks5.py:42 | Every IPv4 target crosses the tunnel unchanged. |
| `EndToEnd.DottedQuadClean` | client/socks5.py:42 | Dotted-quad text has no colon, no line feed and no white space at either end. |
| `EndToEnd.Ipv6TargetRefused` | server/forward_handler.py:64 | No IPv6 target crosses the tunnel: its text has at least two colons, so the server's two-way split fails. |
| `EndToEnd.SessionReachesServer` | client/socks5.py:61-67 | Of the sessions the SOCKS5 side accepts, IPv4 targets reach the server as sent, IPv6 targets are always refused, and domain names arrive as sent when their text has no colon, line feed or surrounding white space. |

## Left out

- The TLS tunnels (`client/tunnel.py`, `server/tunnel.py`), certificates (`client/utils/certs.py`), configuration, logging and the `main` entry points are not part of this model. A TLS connection is modelled as a plain `Socket` once its handshake is done, except for its half-close (see below).
- `connect_raw` and `socket.create_connection` are parameters of `Run`: the socket they yield, or null when they fail. Name resolution and the connection itself are not modelled. In particular `create_connection` fails for a port outside 0..65535, which `_parse_target` lets through; `ForwardHandler.ForwardingHandler.Run` takes any `dest`, so it also admits a relay to such a port, which cannot happen.
- Threads: `_relay` runs its two pumps one after the other. They change disjoint fields of the two sockets, so the end state is the same, but interleavings are not modelled.
- `recv` returns everything pending up to `n` bytes. A short read before end of stream, which real sockets may return, is not modelled. Neither is any failure of `recv`, `sendall` or `shutdown` other than on a closed or write-shut socket: a peer that resets the connection, a broken pipe, a timeout, or an `ssl.SSLError` on a TLS connection.
- `print` and `logger` calls, and the text of the exception messages.
- `except SSL_ERROR_SLL or SSL_ERROR_EOF` would itself raise `NameError` when an exception reaches it. Only the result is modelled: the `finally` clause closes the browser connection on every path.
- `Text.ParseIntForm`: `int()` accepts only ASCII digits here. Python also accepts the other Unicode decimal digits and refuses more than 4300 digits; neither is modelled.
- `Inet.Ipv6Text` follows section 4 of RFC 5952. The C library's `inet_ntop` also writes some IPv4-mapped and IPv4-compatible addresses with an embedded dotted quad, which is not modelled. Every IPv6 text, embedded forms included, has at least two colons, so `EndToEnd.Ipv6TargetRefused` holds of them too.
- `Socks5.ProxyHandler.Run`, `Socks5.ProxyHandler.Negotiate`, `Socks5.ProxyHandler.ReadGreeting`, `Socks5.ProxyHandler.ReadRequest`, `Socks5.ProxyHandler.ReadAddress`: follow the length-checked `Socks5.Session`, not client/socks5.py:30, 45 and 53-54 as written, which use a short `recv` as it comes. For example, on `05 02 00` then end of stream the code sends `05 00` and the model's handler sends nothing. The code's behaviour is `Socks5.SessionAsWritten`, and `Socks5.AsWrittenDiffersOnlyWhenCut` bounds the difference.
- `Relay.Relay`, `Socks5.ProxyHandler.Forward`, `ForwardHandler.ForwardingHandler.Forward`, `Socks5.ProxyHandler.Run`, `ForwardHandler.ForwardingHandler.Run`: a TLS connection is a plain `Socket` here. With Python's `ssl` sockets, `shutdown(SHUT_WR)` on the tunnel also drops its TLS layer, so after one pump half-closes the tunnel the other pump's `recv` on it would read raw TLS records rather than the peer's data. The model does not capture this; it promises the data the peer sends.
- `Text.IsSpace` lists the characters Python's `str.isspace()` accepts; no other Unicode property is modelled.

## Findings

| source | as written | input that shows it | evidently intended | confidence | as-written member | corrected member |
|---|---|---|---|---|---|---|
| client/socks5.py:30 | the result of `recv(nmethods)` is not checked for length, and `05 00` is sent anyway | `05 02 00` then end of stream | answer only a complete greeting | not executed | `Socks5.ShortGreetingAnswered` | `Socks5.GreetingAnswered` |
| client/socks5.py:45 | the result of `recv(domain_len)` is not checked for length, and a cut name is decoded and used | `05 01 00 05 01 00 03 05 61` then end of stream: accepted as `a`, port 0 | refuse a name shorter than its length byte | not executed | `Socks5.ShortDomainAccepted` | `Socks5.AcceptedIsRequest` |
| client/socks5.py:53-54 | the result of `recv(2)` is not checked for length, so 0 or 1 port bytes give a port | `05 01 00 05 01 00 01 7f 00 00 01` then end of stream: accepted with port 0 | refuse a request without its two port bytes | not executed | `Socks5.MissingPortAccepted` | `Socks5.AcceptedIsRequest` |

The as-written session is `Socks5.SessionAsWritten`, and the length-checked one
is `Socks5.Session`. `Socks5.AsWrittenDiffersOnlyWhenCut` shows that they differ
only on a stream that ends inside a request. The handler `Socks5.ProxyHandler`
and every other property use `Socks5.Session`.

=== FILE: bytes.dfy ===
/** Octets as they travel on a socket. */
module Bytes {

  /** One octet. */
  type byte = b: int | 0 <= b < 0x100

  /** The line feed that ends the tunnel's target line. */
  const NL: byte := 0x0A

  function Min(a: int, b: int): int { if a <= b then a else b }

  /** What one `recv(n)` yields when `s` is everything not yet received and the
      peer has already sent all of it: the next `n` bytes, or fewer at end of stream. */
  function Take(s: seq<byte>, n: nat): (r: seq<byte>)
    ensures |r| == Min(n, |s|)
    ensures r == s[..|r|]
  {
    s[..Min(n, |s|)]
  }

  /** `int.from_bytes(b, "big")`. */
  function BigEndian(b: seq<byte>): (v: nat)
    ensures |b| == 2 ==> v == (b[0] as int) * 0x100 + b[1]
    ensures v < Pow256(|b|)
  {
    if b == [] then 0 else BigEndian(b[..|b| - 1]) * 0x100 + b[|b| - 1]
  }

  function Pow256(k: nat): (p: nat)
    ensures p >= 1
  {
    if k == 0 then 1 else 0x100 * Pow256(k - 1)
  }
}

=== FILE: end_to_end.dfy ===
/** The two ends of the tunnel together: the target line the SOCKS5 side
    writes first into the tunnel, read back by the forwarding side. */
module EndToEnd {
  import opened Wrappers
  import opened Bytes
  import opened Text
  import opened Utf8
  import opened Inet
  import opened Socks5
  import opened ForwardHandler

  /** The text of a target line is the host, a colon and the port in
      decimal, and the line holds no other line feed when the host holds
      none. */
  lemma TargetLineText(host: string, port: nat)
    ensures TargetLine(host, port) == Encode(host + [':'] + Decimal(port)) + [NL]
    ensures '\n' !in host ==> '\n' !in host + [':'] + Decimal(port)
  {
    DecimalHasNoColon(port);
  }

  /** The forwarding side resolves a target line to its text, stripped,
      whatever the client sends after it, when the host holds no line feed. */
  lemma TargetLineResolved(host: string, port: nat, rest: seq<byte>)
    requires '\n' !in host
    ensures TargetOf(TargetLine(host, port) + rest) == Resolve(Strip(host + [':'] + Decimal(port)))
  {
    var text := host + [':'] + Decimal(port);
    assert TargetLine(host, port) + rest == Encode(text) + [NL] + rest && '\n' !in text by {
      TargetLineText(host, port);
    }
    TargetOfText(text, rest);
  }

  /** The round trip through the tunnel: the line the SOCKS5 side builds for a
      host without colon, line feed or surrounding white space, and a port
      that fits in 16 bits, is read by the forwarding side as that very host
      and port, whatever the client sends after it. */
  lemma TargetLineRoundTrip(host: string, port: nat, rest: seq<byte>)
    requires ':' !in host && '\n' !in host && Strip(host) == host && port < 0x10000
    ensures TargetOf(TargetLine(host, port) + rest) == Success(Target(host, port))
  {
    TargetLineResolved(host, port, rest);
    ResolveHostPort(host, port);
  }

  /** The text of a target line names its host and port, and `strip()`
      leaves it alone. */
  lemma ResolveHostPort(host: string, port: nat)
    requires ':' !in host && Strip(host) == host
    ensures var text := host + [':'] + Decimal(port);
      Strip(text) == text && Resolve(text) == Success(Target(host, port))
  {
    StrippedTargetText(host, port);
    AnyPortAccepted(host, port);
  }

  /** Every IPv4 target survives the tunnel: its dotted-quad text has no
      colon, no line feed and no white space. */
  lemma Ipv4TargetRoundTrip(a: Address, port: nat, rest: seq<byte>)
    requires a.IPv4? && ValidAddress(a) && port < 0x10000
    ensures TargetOf(TargetLine(HostText(a), port) + rest) == Success(Target(HostText(a), port))
  {
    DottedQuadClean(HostText(a));
    TargetLineRoundTrip(HostText(a), port, rest);
  }

  /** A dotted-quad text has no colon, no line feed and no white space at
      either end. */
  lemma DottedQuadClean(h: string)
    requires DottedText(h) && h != []
    ensures ':' !in h && '\n' !in h && Strip(h) == h
  {
    assert h[0] in h && h[|h| - 1] in h;
    TrimUnchanged(h, StripBlanks);
  }

  /** No IPv6 target survives the tunnel: its text holds at least two
      colons, so the forwarding side's two-way split of the line fails. */
  lemma Ipv6TargetRefused(a: Address, port: nat, rest: seq<byte>)
    requires a.IPv6? && ValidAddress(a) && port < 0x10000
    ensures TargetOf(TargetLine(HostText(a), port) + rest) == Failure(BadTarget(NotHostPort))
  {
    var h := HostText(a);
    assert '\n' !in h by {
      assert DigitValue('\n') == -1;
    }
    TargetLineResolved(h, port, rest);
    MoreColons(h, Decimal(port));
    ColonsRefused(h + [':'] + Decimal(port));
  }

  /** A colon between two texts adds to the colons they hold. */
  lemma MoreColons(h: string, p: string)
    ensures Count(h + [':'] + p, ':') >= Count(h, ':') + 1
  {
    CountConcat(h, [':'], ':');
    CountConcat(h + [':'], p, ':');
  }

  /** What a session the SOCKS5 side accepts becomes at the other end: an
      IPv4 target arrives as sent, an IPv6 target is always refused, and a
      domain name arrives as sent when its text has no colon, no line feed
      and no surrounding white space. */
  lemma SessionReachesServer(input: seq<byte>, rest: seq<byte>)
    requires Session(input).Accepted?
    ensures var o := Session(input); var h := HostText(o.addr);
      && (o.addr.IPv4? ==> TargetOf(TargetLine(h, o.port) + rest) == Success(Target(h, o.port)))
      && (o.addr.IPv6? ==> TargetOf(TargetLine(h, o.port) + rest) == Failure(BadTarget(NotHostPort)))
      && (o.addr.DomainName? && ':' !in h && '\n' !in h && Strip(h) == h ==>
            TargetOf(TargetLine(h, o.port) + rest) == Success(Target(h, o.port)))
  {
    var o := Session(input);
    match o.addr {
      case IPv4(_) => Ipv4TargetRoundTrip(o.addr, o.port, rest);
      case IPv6(_) => Ipv6TargetRefused(o.addr, o.port, rest);
      case DomainName(_) =>
        var h := HostText(o.addr);
        if ':' !in h && '\n' !in h && Strip(h) == h {
          TargetLineRoundTrip(h, o.port, rest);
        }
    }
  }
}

=== FILE: forward_handler.dfy ===
/** The server side of the tunnel (`ForwardingHandler`): it reads the target
    line the client wrote first into the TLS connection, parses `host:port`,
    connects there and relays. */
module ForwardHandler {
  import opened Wrappers
  import opened Bytes
  import opened Text
  import opened Utf8
  import opened Sockets
  import Relay

  // ---------------------------------------------------------------------------
  // Reading the target line

  /** How many bytes `_recv_until_newline` takes from a connection whose
      pending bytes are `s`: up to and including the first line feed, or all
      of them when there is none. */
  function LineLength(s: seq<byte>): (n: nat)
    ensures n <= |s|
    ensures NL in s ==> 0 < n && s[n - 1] == NL && NL !in s[..n - 1]
    ensures NL !in s ==> n == |s|
  {
    if s == [] then 0
    else if s[0] == NL then 1
    else
      var k := LineLength(s[1..]);
      assert k > 0 ==> s[..k] == [s[0]] + s[1..][..k - 1];
      1 + k
  }

  /** A prefix that ends with the first line feed has the line's length. */
  lemma LineLengthUnique(s: seq<byte>, k: nat)
    requires 0 < k <= |s| && s[k - 1] == NL && NL !in s[..k - 1]
    ensures LineLength(s) == k
  {
  }

  /** `data.partition(b"\n")`: the bytes before the first line feed and the
      bytes after it, or all of `data` and nothing when it holds none. */
  function Partition(data: seq<byte>): (r: (seq<byte>, seq<byte>))
    ensures NL !in r.0
    ensures NL in data ==> data == r.0 + [NL] + r.1
    ensures NL !in data ==> r == (data, [])
  {
    if NL in data then
      var n := LineLength(data);
      assert data == data[..n - 1] + [NL] + data[n..];
      (data[..n - 1], data[n..])
    else (data, [])
  }

  /** The text `_recv_until_newline` returns when the pending bytes are `s`:
      the line before the first line feed, decoded and stripped; None when it
      is not UTF-8 (`decode()` raises). The text holds no line feed, and
      stripping it again changes nothing. */
  function LineText(s: seq<byte>): (r: Option<string>)
    ensures r.Some? ==> '\n' !in r.value && Strip(r.value) == r.value
  {
    match Decode(Partition(s[..LineLength(s)]).0)
    case None => None
    case Some(text) =>
      EncodeAscii(text, '\n');
      StripIdempotent(text);
      NoNewlineStripped(text);
      Some(Strip(text))
  }

  /** Stripping adds no line feed. */
  lemma NoNewlineStripped(text: string)
    requires '\n' !in text
    ensures '\n' !in Strip(text)
  {
    TrimInfix(text, StripBlanks);
  }

  /** Reading stops at the first line feed, so `partition` never leaves
      anything after it. */
  lemma LeftoverEmpty(s: seq<byte>)
    ensures Partition(s[..LineLength(s)]).1 == []
  {
    var data := s[..LineLength(s)];
    if NL in data {
      var n := LineLength(s);
      assert NL in s;
      assert data[..n - 1] == s[..n - 1];
      LineLengthUnique(data, n);
    }
  }

  /** The line as read is the bytes before the first line feed: if `s` is a
      line without a line feed, then a line feed, then anything at all, the
      text is that line decoded and stripped. */
  lemma LineTextOf(line: seq<byte>, rest: seq<byte>)
    requires NL !in line
    ensures LineText(line + [NL] + rest) == match Decode(line) case None => None case Some(t) => Some(Strip(t))
  {
    var s := line + [NL] + rest;
    assert s[..|line|] == line;
    LineLengthUnique(s, |line| + 1);
    var data := s[..|line| + 1];
    assert data == line + [NL];
    assert Partition(data).0 == line;
  }

  // ---------------------------------------------------------------------------
  // Parsing the target

  datatype Target = Target(host: string, port: int)

  /** Why `_parse_target` raises: no colon, not exactly two colon-separated
      parts (the two-way unpack fails), or a port text `int()` refuses. */
  datatype TargetError = NoColon | NotHostPort | BadPort

  /** `_parse_target(line)`: exactly one colon is needed; the host is the
      text before it, taken as is, and the port the integer after it, with no
      range check. It refuses for a missing colon exactly when there is no
      colon, fails the two-way unpack exactly when there are two colons or
      more, and otherwise refuses only for the port. */
  function ParseTarget(line: string): (r: Result<Target, TargetError>)
    ensures r == Failure(NoColon) <==> ':' !in line
    ensures r == Failure(NotHostPort) <==> Count(line, ':') >= 2
    ensures r == Failure(BadPort) || r.Success? ==> Count(line, ':') == 1
    ensures r.Success? ==> ':' !in r.value.host
  {
    if ':' !in line then Failure(NoColon)
    else
      var parts := Split(Strip(line), ':');
      assert |parts| == Count(line, ':') + 1 by {
        assert !IsSpace(':');
      }
      if |parts| != 2 then Failure(NotHostPort)
      else
        match ParseInt(parts[1])
        case None => Failure(BadPort)
        case Some(port) => Success(Target(parts[0], port))
  }

  /** A text with two colons or more is refused, whatever white space
      surrounds it. */
  lemma ColonsRefused(text: string)
    requires Count(text, ':') >= 2
    ensures Resolve(Strip(text)) == Failure(BadTarget(NotHostPort))
  {
    assert !IsSpace(':');
    assert Count(Strip(text), ':') >= 2;
  }

  /** What `_parse_target` accepts: the stripped line is the host, a colon and
      a port text that `int()` reads as the port, and the host holds no colon. */
  lemma ParseTargetAccepted(line: string)
    requires ParseTarget(line).Success?
    ensures var t := ParseTarget(line).value;
      && ':' !in t.host
      && exists portText :: Strip(line) == t.host + [':'] + portText && ParseInt(portText) == Some(t.port)
  {
    var parts := Split(Strip(line), ':');
    TwoParts(Strip(line));
    assert ParseInt(parts[1]) == Some(ParseTarget(line).value.port);
  }

  /** A text that splits in two at its colon is the first part, the colon
      and the second part. */
  lemma TwoParts(s: string)
    requires |Split(s, ':')| == 2
    ensures var parts := Split(s, ':');
      ':' !in parts[0] && s == parts[0] + [':'] + parts[1]
  {
    var parts := Split(s, ':');
    assert Join(parts, ':') == parts[0] + [':'] + parts[1];
  }

  /** Conversely, a host without colon, a colon and a port text without
      colon, with no white space around the whole, is parsed to that host and
      the port text's value, or refused for its port when `int()` refuses it. */
  lemma ParseTargetOf(host: string, portText: string)
    requires ':' !in host && ':' !in portText
    requires Strip(host + [':'] + portText) == host + [':'] + portText
    ensures ParseTarget(host + [':'] + portText) ==
      match ParseInt(portText)
      case Some(port) => Success(Target(host, port))
      case None => Failure(BadPort)
  {
    HostPortSplit(host, portText);
  }

  lemma HostPortSplit(host: string, portText: string)
    requires ':' !in portText
    ensures var line := host + [':'] + portText;
      ':' in line && (':' !in host ==> Split(line, ':') == [host, portText])
  {
    var line := host + [':'] + portText;
    assert line[|host|] == ':';
    if ':' !in host {
      SplitPrefix(host, portText, ':');
      SplitNoSep(portText, ':');
    }
  }

  /** What `run` makes of the tunnel's first line: the target it connects to,
      or why it gives up before connecting. */
  datatype Abort = Undecodable | EmptyLine | BadTarget(error: TargetError)

  function TargetOf(inbound: seq<byte>): (r: Result<Target, Abort>)
    ensures r == Failure(Undecodable) <==> LineText(inbound).None?
    ensures r == Failure(EmptyLine) <==> LineText(inbound) == Some([])
    ensures r.Success? ==> Count(LineText(inbound).value, ':') == 1 && ':' !in r.value.host
  {
    match LineText(inbound)
    case None => Failure(Undecodable)
    case Some(text) => Resolve(text)
  }

  /** The target a decoded and stripped line names: an empty line is refused
      before `_parse_target` is called. A target comes only from a line with
      exactly one colon, and its host holds none. */
  function Resolve(text: string): (r: Result<Target, Abort>)
    ensures r == Failure(EmptyLine) <==> text == []
    ensures r == Failure(BadTarget(NoColon)) <==> text != [] && ':' !in text
    ensures r == Failure(BadTarget(NotHostPort)) <==> Count(text, ':') >= 2
    ensures r.Success? ==> Count(text, ':') == 1 && ':' !in r.value.host
  {
    if text == [] then Failure(EmptyLine)
    else
      match ParseTarget(text)
      case Failure(e) => Failure(BadTarget(e))
      case Success(t) => Success(t)
  }

  /** A text without line feed, encoded and followed by a line feed, is read
      back as that text stripped, whatever follows the line feed. */
  lemma LineOfText(text: string, rest: seq<byte>)
    requires '\n' !in text
    ensures LineText(Encode(text) + [NL] + rest) == Some(Strip(text))
  {
    EncodeAscii(text, '\n');
    LineTextOf(Encode(text), rest);
    DecodeEncode(text);
  }

  /** The forwarding side resolves a line it can read back to its text. */
  lemma TargetOfText(text: string, rest: seq<byte>)
    requires '\n' !in text
    ensures TargetOf(Encode(text) + [NL] + rest) == Resolve(Strip(text))
  {
    LineOfText(text, rest);
  }

  /** A line with no colon is refused as such, unless it is blank. */
  lemma NoColonRefused(text: string, rest: seq<byte>)
    requires ':' !in text && '\n' !in text && Strip(text) != []
    ensures TargetOf(Encode(text) + [NL] + rest) == Failure(BadTarget(NoColon))
  {
    TargetOfText(text, rest);
    NoColonStripped(text);
  }

  lemma NoColonStripped(text: string)
    requires ':' !in text
    ensures ':' !in Strip(text)
  {
    assert !IsSpace(':');
    assert Count(Strip(text), ':') == Count(text, ':');
  }

  /** `strip()` leaves `host:port` alone when it leaves the host alone. */
  lemma StrippedTargetText(host: string, port: nat)
    requires Strip(host) == host
    ensures Strip(host + [':'] + Decimal(port)) == host + [':'] + Decimal(port)
  {
    var d := Decimal(port);
    HostPortStripped(host, d);
  }

  /** `strip()` leaves `host:p` alone when it leaves the host alone and `p`
      ends in a digit. */
  lemma {:induction false} HostPortStripped(host: string, p: string)
    requires Strip(host) == host && p != [] && IsDigit(p[|p| - 1])
    ensures Strip(host + [':'] + p) == host + [':'] + p
  {
    HostPortEnds(host, p);
    TrimUnchanged(host + [':'] + p, StripBlanks);
  }

  lemma {:induction false} HostPortEnds(host: string, p: string)
    requires Strip(host) == host && p != [] && IsDigit(p[|p| - 1])
    ensures var text := host + [':'] + p; !IsSpace(text[0]) && !IsSpace(text[|text| - 1])
  {
    var text := host + [':'] + p;
    if host == [] {
      assert text[0] == ':';
    } else {
      assert text[0] == Strip(host)[0];
    }
    assert text[|text| - 1] == p[|p| - 1];
  }

  /** No range check is made on the port: `host:n` names port `n` for every
      natural number `n`, 65536 and above included. */
  lemma AnyPortAccepted(host: string, port: nat)
    requires ':' !in host && Strip(host) == host
    ensures ParseTarget(host + [':'] + Decimal(port)) == Success(Target(host, port))
  {
    StrippedTargetText(host, port);
    DecimalTargetParsed(host, port);
  }

  lemma DecimalTargetParsed(host: string, port: nat)
    requires ':' !in host && Strip(host + [':'] + Decimal(port)) == host + [':'] + Decimal(port)
    ensures ParseTarget(host + [':'] + Decimal(port)) == Success(Target(host, port))
  {
    DecimalHasNoColon(port);
    ParseTargetOf(host, Decimal(port));
    DecimalRoundTrip(port);
  }

  /** A decimal text holds neither a colon nor a line feed. */
  lemma DecimalHasNoColon(n: nat)
    ensures ':' !in Decimal(n) && '\n' !in Decimal(n)
  {
    var d := Decimal(n);
    assert forall i :: 0 <= i < |d| ==> IsDigit(d[i]);
  }

  /** Whatever value `int()` reads from the port text becomes the port: no
      range check follows, so `host:-1` names port -1 (see
      `Text.NegativeRoundTrip`). */
  lemma {:induction false} PortTextParsed(host: string, portText: string, port: int)
    requires ':' !in host && ':' !in portText
    requires Strip(host + [':'] + portText) == host + [':'] + portText
    requires ParseInt(portText) == Some(port)
    ensures ParseTarget(host + [':'] + portText) == Success(Target(host, port))
  {
    ParseTargetOf(host, portText);
  }

  /** A tunnel that ends before any byte, or whose first line is only white
      space of any kind `strip()` discards, whether a line feed or the end of
      the stream ends it, opens no connection. */
  lemma EmptyLineRefused(blank: string, rest: seq<byte>)
    requires '\n' !in blank && Strip(blank) == []
    ensures TargetOf([]) == Failure(EmptyLine)
    ensures TargetOf(Encode(blank) + [NL] + rest) == Failure(EmptyLine)
    ensures TargetOf(Encode(blank)) == Failure(EmptyLine)
  {
    var none: seq<byte> := [];
    assert none[..LineLength(none)] == none;
    TargetOfText(blank, rest);
    var b := Encode(blank);
    EncodeAscii(blank, '\n');
    assert b[..LineLength(b)] == b;
    DecodeEncode(blank);
  }

  /** The port text goes through `int()`, which does not discard the ASCII
      separators that `strip()` does: a file separator (U+001C) between the
      colon and the port digits gets the line refused for its port. */
  lemma SeparatorPortRefused(host: string, d: string)
    requires ':' !in host && Strip(host) == host && DigitGroups(d)
    ensures ParseTarget(host + [':'] + (['\U{1C}'] + d)) == Failure(BadPort)
  {
    var p := ['\U{1C}'] + d;
    assert p[|p| - 1] == d[|d| - 1];
    HostPortStripped(host, p);
    SeparatorKept(d);
    assert ':' !in p by {
      assert forall i :: 0 <= i < |d| ==> d[i] != ':';
    }
    ParseTargetOf(host, p);
  }

  // ---------------------------------------------------------------------------
  // The handler

  class ForwardingHandler {
    /** The TLS connection from the tunnel client. */
    const clientSock: Socket

    constructor (clientSock: Socket)
      ensures this.clientSock == clientSock
    {
      this.clientSock := clientSock;
    }

    /** `run`. `dest` is the connection `socket.create_connection` opens to
        the target, or null when it fails. The tunnel connection is closed on
        every path; nothing reaches a destination unless the line names a
        target, and then the destination gets all the tunnel sends after the
        line, and the tunnel all the destination sends. The destination is
        only shut for writing, never closed. */
    method Run(dest: Socket?) returns (target: Result<Target, Abort>)
      requires clientSock.Valid() && clientSock.received == 0 && clientSock.sent == [] && clientSock.Writable()
      requires dest != null ==>
        && dest != clientSock && dest.Valid()
        && dest.received == 0 && dest.sent == [] && dest.Writable()
      modifies clientSock, dest
      ensures target == TargetOf(clientSock.inbound)
      ensures clientSock.closed
      ensures target.Failure? || dest == null ==>
        && clientSock.received == LineLength(clientSock.inbound)
        && clientSock.sent == [] && !clientSock.writeShut
        && (dest != null ==> unchanged(dest))
      ensures target.Success? && dest != null ==>
        && dest.sent == clientSock.inbound[LineLength(clientSock.inbound)..]
        && clientSock.sent == dest.inbound
        && clientSock.received == |clientSock.inbound| && dest.received == |dest.inbound|
        && clientSock.writeShut && dest.writeShut && !dest.closed
    {
      var leftover;
      target, leftover := ReadTarget();
      Connect(target, leftover, dest);
    }

    /** The steps of `run` after the line is parsed: give up when there is no
        target or no connection to it, relay otherwise; the tunnel connection
        is closed either way. */
    method Connect(target: Result<Target, Abort>, leftover: seq<byte>, dest: Socket?)
      requires clientSock.Valid() && clientSock.Writable()
      requires dest != null ==> dest != clientSock && dest.Valid() && dest.Writable()
      modifies clientSock, dest
      ensures clientSock.closed
      ensures target.Failure? || dest == null ==>
        && clientSock.received == old(clientSock.received) && clientSock.sent == old(clientSock.sent)
        && clientSock.writeShut == old(clientSock.writeShut) && (dest != null ==> unchanged(dest))
      ensures target.Success? && dest != null ==>
        && dest.sent == old(dest.sent) + leftover + old(clientSock.Pending())
        && clientSock.sent == old(clientSock.sent) + old(dest.Pending())
        && clientSock.received == |clientSock.inbound| && dest.received == |dest.inbound|
        && clientSock.writeShut && dest.writeShut && !dest.closed
    {
      if target.Failure? || dest == null {
        clientSock.Close();
        return;
      }
      Forward(dest, leftover);
    }

    /** The steps of `run` up to the connection: the line, the empty-line
        check and `_parse_target`. */
    method ReadTarget() returns (target: Result<Target, Abort>, leftover: seq<byte>)
      requires clientSock.Valid() && clientSock.received == 0 && !clientSock.closed
      modifies clientSock`received
      ensures clientSock.Valid()
      ensures target == TargetOf(clientSock.inbound)
      ensures clientSock.received == LineLength(clientSock.inbound)
      ensures leftover == []
    {
      var text;
      text, leftover := RecvUntilNewline(clientSock);
      assert clientSock.inbound[0..] == clientSock.inbound;
      if text.None? {
        return Failure(Undecodable), leftover;
      }
      if text.value == [] {
        return Failure(EmptyLine), leftover;
      }
      var parsed := ParseTarget(text.value);
      if parsed.Failure? {
        return Failure(BadTarget(parsed.error)), leftover;
      }
      target := Success(parsed.value);
    }

    /** The steps of `run` once the destination is connected: the leftover
        first when there is one, then the relay in both directions, then the
        tunnel connection closed. The destination gets the leftover followed
        by all the tunnel has not yet sent, the tunnel all the destination
        sends. */
    method Forward(dest: Socket, leftover: seq<byte>)
      requires dest != clientSock && clientSock.Valid() && dest.Valid()
      requires clientSock.Writable() && dest.Writable()
      modifies clientSock, dest
      ensures dest.sent == old(dest.sent) + leftover + old(clientSock.Pending())
      ensures clientSock.sent == old(clientSock.sent) + old(dest.Pending())
      ensures clientSock.received == |clientSock.inbound| && dest.received == |dest.inbound|
      ensures clientSock.writeShut && dest.writeShut && !dest.closed && clientSock.closed
    {
      if leftover != [] {
        var _ := dest.SendAll(leftover);
      }
      Relay.Relay(clientSock, dest);
      clientSock.Close();
    }

    /** `_recv_until_newline(sock)`: one byte at a time until a line feed has
        been read or the stream ends, so exactly `LineLength` bytes are taken;
        the text is `LineText` and the leftover is always empty. */
    method RecvUntilNewline(sock: Socket) returns (text: Option<string>, leftover: seq<byte>)
      requires sock.Valid() && !sock.closed
      modifies sock`received
      ensures sock.Valid()
      ensures sock.received == old(sock.received) + LineLength(old(sock.Pending()))
      ensures text == LineText(old(sock.Pending()))
      ensures leftover == []
    {
      ghost var start := sock.received;
      ghost var pending := sock.inbound[start..];
      var data: seq<byte> := [];
      while !(|data| > 0 && data[|data| - 1] == NL)
        invariant sock.Valid() && !sock.closed && sock.received == start + |data|
        invariant data == pending[..|data|]
        invariant |data| > 0 ==> NL !in data[..|data| - 1]
        decreases |sock.inbound| - sock.received
      {
        var chunk, _ := sock.Recv(1);
        if chunk == [] {
          break;
        }
        assert sock.inbound[start..sock.received] == data + chunk;
        data := data + chunk;
      }
      if |data| > 0 && data[|data| - 1] == NL {
        LineLengthUnique(pending, |data|);
      } else {
        assert data == pending;
      }
      LeftoverEmpty(pending);
      var line: seq<byte>;
      line, leftover := Partition(data).0, Partition(data).1;
      text := match Decode(line) case None => None case Some(t) => Some(Strip(t));
    }
  }
}

=== FILE: inet.dfy ===
/** Text forms of the binary addresses a SOCKS5 request carries:
    `socket.inet_ntoa` for IPv4 and `socket.inet_ntop(AF_INET6, ...)` for IPv6,
    the latter in the canonical form of section 4 of RFC 5952. */
module Inet {
  import opened Bytes
  import opened Text
  import opened Wrappers

  /** Every character is a digit or a dot. */
  predicate DottedText(s: string) {
    forall c :: c in s ==> IsDigit(c) || c == '.'
  }

  /** Every character is a lower-case hexadecimal digit or a colon. */
  predicate ColonHexText(s: string) {
    forall c :: c in s ==> c == ':' || 0 <= DigitValue(c) < 16
  }

  /** `inet_ntoa`: the four octets in decimal, separated by dots. */
  function DottedQuad(a: seq<byte>): (s: string)
    requires |a| == 4
    ensures DottedText(s)
    ensures s != [] && IsDigit(s[0])
  {
    Decimal(a[0]) + "." + Decimal(a[1]) + "." + Decimal(a[2]) + "." + Decimal(a[3])
  }

  /** Dotted-quad text reads back, part by part, to the octets it came from,
      so distinct addresses never share a text. */
  lemma DottedQuadParsesBack(a: seq<byte>)
    requires |a| == 4
    ensures |Split(DottedQuad(a), '.')| == 4
    ensures forall i :: 0 <= i < 4 ==> ParseInt(Split(DottedQuad(a), '.')[i]) == Some(a[i])
  {
    var parts := DottedQuadSplit(a);
    forall i | 0 <= i < 4 ensures ParseInt(parts[i]) == Some(a[i]) {
      DecimalRoundTrip(a[i]);
    }
  }

  /** Dotted-quad text splits at its dots into the four decimal octets. */
  lemma DottedQuadSplit(a: seq<byte>) returns (parts: seq<string>)
    requires |a| == 4
    ensures |parts| == 4 && forall i :: 0 <= i < 4 ==> parts[i] == Decimal(a[i])
    ensures Split(DottedQuad(a), '.') == parts
  {
    parts := seq(4, i requires 0 <= i < 4 => Decimal(a[i]));
    forall i | 0 <= i < 4 ensures '.' !in parts[i] {
      assert forall j :: 0 <= j < |parts[i]| ==> IsDigit(parts[i][j]);
    }
    assert Join(parts[3..], '.') == parts[3];
    assert Join(parts[2..], '.') == parts[2] + "." + parts[3];
    assert Join(parts[1..], '.') == parts[1] + "." + parts[2] + "." + parts[3];
    assert Join(parts, '.') == DottedQuad(a);
    SplitJoin(parts, '.');
  }

  // ---------------------------------------------------------------------------
  // IPv6

  /** The eight 16-bit groups of an IPv6 address, in network order; each is
      below 0x10000. */
  function Groups(a: seq<byte>): (g: seq<nat>)
    requires |a| == 16
    ensures |g| == 8
    ensures forall i :: 0 <= i < 8 ==> g[i] < 0x10000
  {
    seq(8, i requires 0 <= i < 8 => a[2 * i] as int * 0x100 + a[2 * i + 1])
  }

  /** Length of the run of zero groups that starts at `i`. */
  function ZeroRun(g: seq<nat>, i: nat): (n: nat)
    requires i <= |g|
    ensures i + n <= |g|
    ensures forall j :: i <= j < i + n ==> g[j] == 0
    ensures i + n < |g| ==> g[i + n] != 0
    decreases |g| - i
  {
    if i < |g| && g[i] == 0 then 1 + ZeroRun(g, i + 1) else 0
  }

  /** The first of the longest runs of zero groups at or after `i`, as
      (start, length); length 0 when there is none. */
  function LongestZeroRun(g: seq<nat>, i: nat): (r: (nat, nat))
    requires i <= |g|
    ensures r.1 > 0 ==> i <= r.0 < |g| && r.1 == ZeroRun(g, r.0)
    ensures forall j :: i <= j < |g| ==> ZeroRun(g, j) <= r.1
    ensures r.1 > 0 ==> forall j :: i <= j < r.0 ==> ZeroRun(g, j) < r.1
    decreases |g| - i
  {
    if i == |g| then (i, 0)
    else
      var rest := LongestZeroRun(g, i + 1);
      var here := ZeroRun(g, i);
      if here > 0 && here >= rest.1 then (i, here) else rest
  }

  /** `inet_ntop(AF_INET6, a)`: the groups in lower-case hexadecimal without
      leading zeros, separated by colons, with the first longest run of two or
      more zero groups replaced by "::". Such a text always has at least two
      colons. */
  function Ipv6Text(a: seq<byte>): (s: string)
    requires |a| == 16
    ensures ColonHexText(s)
    ensures Count(s, ':') >= 2
  {
    var g := Groups(a);
    var hex := seq(8, i requires 0 <= i < 8 => Hex(g[i]));
    assert forall i :: 0 <= i < 8 ==> ColonHexText(hex[i]) && ':' !in hex[i] by {
      forall i | 0 <= i < 8 ensures ColonHexText(hex[i]) && ':' !in hex[i] {
        HexIsHexText(g[i]);
      }
    }
    var (start, len) := LongestZeroRun(g, 0);
    if len < 2 then
      JoinColonHex(hex);
      JoinCount(hex, ':');
      Join(hex, ':')
    else
      var left, right := hex[..start], hex[start + len..];
      JoinColonHex(left);
      JoinColonHex(right);
      CountConcat(Join(left, ':'), "::", ':');
      CountConcat(Join(left, ':') + "::", Join(right, ':'), ':');
      assert Count("::", ':') == 2;
      Join(left, ':') + "::" + Join(right, ':')
  }

  lemma HexIsHexText(n: nat)
    ensures ColonHexText(Hex(n)) && ':' !in Hex(n)
  {
    var h := Hex(n);
    assert forall j :: 0 <= j < |h| ==> 0 <= DigitValue(h[j]) < 16;
  }

  lemma {:induction false} JoinColonHex(parts: seq<string>)
    requires forall i :: 0 <= i < |parts| ==> ColonHexText(parts[i])
    ensures ColonHexText(Join(parts, ':'))
  {
    if |parts| > 1 {
      JoinColonHex(parts[1..]);
    }
  }

  /** Joining pieces that hold no separator puts exactly one separator
      between each two of them. */
  lemma {:induction false} JoinCount(parts: seq<string>, sep: char)
    requires |parts| >= 1
    requires forall i :: 0 <= i < |parts| ==> sep !in parts[i]
    ensures Count(Join(parts, sep), sep) == |parts| - 1
  {
    if |parts| == 1 {
      assert Count(parts[0], sep) == 0;
    } else {
      JoinCount(parts[1..], sep);
      CountConcat(parts[0], [sep], sep);
      CountConcat(parts[0] + [sep], Join(parts[1..], sep), sep);
      assert Count(parts[0], sep) == 0;
    }
  }
}

=== FILE: relay.dfy ===
/** The byte pump that both the SOCKS5 side and the forwarding side run
    between their two connections: `pipe` and `_relay`. */
module Relay {
  import opened Bytes
  import opened Sockets

  /** The buffer size of every `recv` in a pump. */
  const ChunkSize: nat := 4096

  /** The chunks of a write log, joined. */
  function Concat(chunks: seq<seq<byte>>): seq<byte> {
    if chunks == [] then [] else Concat(chunks[..|chunks| - 1]) + chunks[|chunks| - 1]
  }

  /** Every chunk is non-empty and at most one buffer long. */
  predicate ChunksFit(chunks: seq<seq<byte>>) {
    forall i :: 0 <= i < |chunks| ==> 0 < |chunks[i]| <= ChunkSize
  }

  /** `log` extends `before`, and what it adds are chunks that fit a buffer
      and join to `data`. */
  ghost predicate WrittenInChunks(before: seq<seq<byte>>, log: seq<seq<byte>>, data: seq<byte>) {
    && |before| <= |log| && log[..|before|] == before
    && ChunksFit(log[|before|..]) && Concat(log[|before|..]) == data
  }

  /** `pipe(src, dst)`: copies chunk after chunk from `src` to `dst` until
      `src` ends (an empty read) or an operation fails, then shuts `dst` for
      writing and touches nothing else. `forwarded` bytes reach `dst`, each
      `sendall` carrying one chunk of 1 to 4096 bytes. */
  method Pipe(src: Socket, dst: Socket) returns (forwarded: nat)
    requires src != dst && src.Valid()
    modifies src`received, dst`sent, dst`writes, dst`writeShut
    ensures src.Valid() && old(src.received) + forwarded <= src.received
    ensures dst.sent == old(dst.sent) + src.inbound[old(src.received)..old(src.received) + forwarded]
    ensures WrittenInChunks(old(dst.writes), dst.writes, src.inbound[old(src.received)..old(src.received) + forwarded])
    ensures !src.closed && old(dst.Writable()) ==> src.received == |src.inbound| && dst.sent == old(dst.sent) + old(src.Pending())
    ensures !src.closed && !old(dst.Writable()) ==> forwarded == 0 && src.received == old(src.received) + Min(ChunkSize, |old(src.Pending())|)
    ensures src.closed ==> forwarded == 0 && src.received == old(src.received)
    ensures dst.writeShut == (old(dst.writeShut) || !dst.closed)
  {
    forwarded := Copy(src, dst);
    dst.ShutdownWrite();
  }

  /** The loop of `pipe`: it ends at the first empty read, at the first failed
      read (a closed source) or at the first failed write (a destination that
      no longer accepts data), whose chunk is then lost. */
  method Copy(src: Socket, dst: Socket) returns (forwarded: nat)
    requires src != dst && src.Valid()
    modifies src`received, dst`sent, dst`writes
    ensures src.Valid() && old(src.received) + forwarded <= src.received
    ensures dst.sent == old(dst.sent) + src.inbound[old(src.received)..old(src.received) + forwarded]
    ensures WrittenInChunks(old(dst.writes), dst.writes, src.inbound[old(src.received)..old(src.received) + forwarded])
    ensures !src.closed && dst.Writable() ==> src.received == |src.inbound| == old(src.received) + forwarded
    ensures !src.closed && !dst.Writable() ==> forwarded == 0 && src.received == old(src.received) + Min(ChunkSize, |old(src.Pending())|)
    ensures src.closed ==> forwarded == 0 && src.received == old(src.received)
  {
    ghost var start := src.received;
    ghost var log := dst.writes;
    forwarded := 0;
    assert dst.writes[|log|..] == [];
    while true
      invariant src.Valid() && start + forwarded == src.received
      invariant dst.sent == old(dst.sent) + src.inbound[start..src.received]
      invariant WrittenInChunks(log, dst.writes, src.inbound[start..src.received])
      invariant !dst.Writable() || src.closed ==> forwarded == 0
      decreases |src.inbound| - src.received
    {
      ghost var before := src.received;
      ghost var written := dst.writes;
      var data, ok := src.Recv(ChunkSize);
      if !ok || data == [] {
        break;
      }
      var sentOk := dst.SendAll(data);
      if !sentOk {
        break;
      }
      Extend(src.inbound, start, before, data);
      ghost var copied := src.inbound[start..before];
      assert src.inbound[start..src.received] == copied + data;
      assert dst.sent == old(dst.sent) + (copied + data);
      LogGrows(log, written, copied, data);
      forwarded := forwarded + |data|;
    }
  }

  /** One more chunk that fits keeps a log written in chunks. */
  lemma LogGrows(before: seq<seq<byte>>, log: seq<seq<byte>>, data: seq<byte>, chunk: seq<byte>)
    requires WrittenInChunks(before, log, data)
    requires 0 < |chunk| <= ChunkSize
    ensures WrittenInChunks(before, log + [chunk], data + chunk)
  {
    var added := (log + [chunk])[|before|..];
    assert added == log[|before|..] + [chunk];
    assert added[..|added| - 1] == log[|before|..];
  }

  /** A chunk read right after a slice extends the slice. */
  lemma Extend(s: seq<byte>, i: nat, j: nat, d: seq<byte>)
    requires i <= j && j + |d| <= |s| && d == s[j..][..|d|]
    ensures s[i..j + |d|] == s[i..j] + d
  {
  }

  /** `_relay(a, b)`: one pump from `a` to `b` and one from `b` to `a`. The
      two pumps change disjoint parts of the two sockets (a pump reads its
      source and writes and shuts its destination), so running them one after
      the other ends in the state any interleaving of the two threads ends in. */
  method Relay(a: Socket, b: Socket)
    requires a != b && a.Valid() && b.Valid()
    modifies a`received, a`sent, a`writes, a`writeShut, b`received, b`sent, b`writes, b`writeShut
    ensures a.Valid() && b.Valid()
    ensures old(a.Writable()) && old(b.Writable()) ==>
      && b.sent == old(b.sent) + old(a.Pending()) && a.received == |a.inbound|
      && a.sent == old(a.sent) + old(b.Pending()) && b.received == |b.inbound|
      && a.writeShut && b.writeShut
  {
    var _ := Pipe(a, b);
    var _ := Pipe(b, a);
  }
}

=== FILE: sockets.dfy ===
/** A connected stream socket, seen from this program's side. A TLS
    connection is modelled as one too, once its handshake is done; where it
    behaves differently (its half-close) is listed as left out. */
module Sockets {
  import opened Bytes

  class Socket {
    /** Every byte the peer sends over the connection's lifetime, in order;
        end of stream follows the last one. */
    const inbound: seq<byte>
    /** How many of those bytes this side has taken with `recv`. */
    var received: nat
    /** Every byte this side has handed to `sendall`, in order. */
    var sent: seq<byte>
    /** The same bytes, one entry per successful `sendall` call. */
    ghost var writes: seq<seq<byte>>
    /** `shutdown(SHUT_WR)` was issued: the peer has seen end of stream. */
    var writeShut: bool
    var closed: bool

    ghost predicate Valid()
      reads this
    {
      received <= |inbound|
    }

    /** The bytes the peer has sent that have not been received yet. */
    ghost function Pending(): seq<byte>
      reads this
      requires Valid()
    {
      inbound[received..]
    }

    predicate Writable()
      reads this
    {
      !writeShut && !closed
    }

    constructor (inbound: seq<byte>)
      ensures this.inbound == inbound && Valid()
      ensures received == 0 && sent == [] && writes == [] && !writeShut && !closed
    {
      this.inbound := inbound;
      received, sent, writes := 0, [], [];
      writeShut, closed := false, false;
    }

    /** `recv(n)`: the next `n` pending bytes, fewer at end of stream, none
        once the stream has ended. `ok` is false when the socket is closed
        (Python raises OSError). */
    method Recv(n: nat) returns (data: seq<byte>, ok: bool)
      requires Valid()
      modifies this`received
      ensures Valid()
      ensures ok == !closed
      ensures data == if ok then Take(old(Pending()), n) else []
      ensures received == old(received) + |data|
    {
      ok := !closed;
      if ok {
        data := Take(inbound[received..], n);
        received := received + |data|;
      } else {
        data := [];
      }
    }

    /** `sendall(data)`: all of `data` is delivered, unless the socket was
        shut for writing or closed (Python raises). */
    method SendAll(data: seq<byte>) returns (ok: bool)
      modifies this`sent, this`writes
      ensures ok == Writable()
      ensures sent == if ok then old(sent) + data else old(sent)
      ensures writes == if ok then old(writes) + [data] else old(writes)
    {
      ok := Writable();
      if ok {
        sent := sent + data;
        writes := writes + [data];
      }
    }

    /** `shutdown(SHUT_WR)`; on a closed socket it raises and changes nothing. */
    method ShutdownWrite()
      modifies this`writeShut
      ensures writeShut == (old(writeShut) || !closed)
    {
      if !closed {
        writeShut := true;
      }
    }

    /** `close()`; closing twice is harmless. */
    method Close()
      modifies this`closed
      ensures closed
    {
      closed := true;
    }
  }
}

=== FILE: socks5.dfy ===
/** The SOCKS5 side of the tunnel (`Socks5ProxyHandler`): the CONNECT subset
    of RFC 1928 read off the browser's connection, the fixed success reply,
    and the target line sent as the first bytes of the TLS tunnel. */
module Socks5 {
  import opened Bytes
  import opened Text
  import opened Utf8
  import opened Inet
  import opened Sockets
  import Relay

  // ---------------------------------------------------------------------------
  // Addresses (section 5 of RFC 1928)

  datatype Address =
    | IPv4(octets: seq<byte>)
    | DomainName(name: seq<byte>)
    | IPv6(octets: seq<byte>)

  /** Four octets, a name whose length fits its length byte, or sixteen octets. */
  predicate ValidAddress(a: Address) {
    match a
    case IPv4(octets) => |octets| == 4
    case DomainName(name) => |name| < 0x100
    case IPv6(octets) => |octets| == 16
  }

  function AddressType(a: Address): byte {
    match a
    case IPv4(_) => 1
    case DomainName(_) => 3
    case IPv6(_) => 4
  }

  /** The address field of a request: the octets, or the name after its
      length byte. */
  function AddressBytes(a: Address): seq<byte>
    requires ValidAddress(a)
  {
    match a
    case IPv4(octets) => octets
    case DomainName(name) => [|name|] + name
    case IPv6(octets) => octets
  }

  /** Whether the handler can turn the address into text: every IP address
      can, a domain name only when it is strict UTF-8 (`.decode()` raises
      otherwise). */
  predicate Textual(a: Address) {
    a.DomainName? ==> Decode(a.name).Some?
  }

  /** The host text: `inet_ntoa`, the decoded name, or `inet_ntop`. A
      name's text encodes back to the name; an IPv4 text holds no colon and
      an IPv6 text at least two. */
  function HostText(a: Address): (h: string)
    requires ValidAddress(a) && Textual(a)
    ensures a.DomainName? ==> Encode(h) == a.name
    ensures a.IPv4? ==> DottedText(h) && ':' !in h && h != [] && IsDigit(h[0])
    ensures a.IPv6? ==> ColonHexText(h) && Count(h, ':') >= 2
  {
    match a
    case IPv4(octets) =>
      var h := DottedQuad(octets);
      assert forall i :: 0 <= i < |h| ==> h[i] in h;
      h
    case DomainName(name) => Decode(name).value
    case IPv6(octets) => Ipv6Text(octets)
  }

  // ---------------------------------------------------------------------------
  // The session as a function of the bytes the client sends

  /** How a `recv(n)` whose length the handler needs is treated. The handler
      as written unpacks or indexes some reads, which fails when they are
      short, but uses three of them (the offered methods, the domain name and
      the port) whatever their length: `Truncating`. `Exact` also refuses
      those three when the stream ends first. */
  datatype ReadMode = Exact | Truncating

  /** How a session ends. `greeted` says whether `05 00` was sent before the
      rejection; `consumed` is how many bytes the handler took off the client
      connection. */
  datatype Outcome =
    | Rejected(greeted: bool, consumed: nat)
    | Accepted(addr: Address, port: nat, consumed: nat)

  /** One parsing stage: it fails with the position reached, or yields a value
      and the position after it. */
  datatype Step<T> = Stop(pos: nat) | Next(value: T, pos: nat)

  /** `recv(n)` on a connection whose first `at` bytes are already taken. */
  function Read(input: seq<byte>, at: nat, n: nat): (d: seq<byte>)
    requires at <= |input|
    ensures |d| == Min(n, |input| - at) && d == input[at..at + |d|]
  {
    Take(input[at..], n)
  }

  /** A `recv(n)` that only `Exact` refuses when short. */
  function ReadAll(input: seq<byte>, at: nat, n: nat, mode: ReadMode): (r: Step<seq<byte>>)
    requires at <= |input|
    ensures at <= r.pos <= |input|
    ensures r.Next? ==> r.value == input[at..r.pos] && |r.value| <= n
    ensures r.Next? && mode == Exact ==> |r.value| == n
    ensures r.Stop? ==> mode == Exact && r.pos == |input| < at + n
  {
    var d := Read(input, at, n);
    if mode == Exact && |d| < n then Stop(at + |d|) else Next(d, at + |d|)
  }

  /** The greeting: the version and method-count bytes (unpacked, so both
      must arrive) and then that many method bytes, which are discarded. */
  function GreetingAt(input: seq<byte>, mode: ReadMode): (r: Step<seq<byte>>)
    ensures r.pos <= |input|
    ensures r.Next? ==> |input| >= 2 && r.pos == 2 + |r.value| && r.value == input[2..r.pos]
    ensures r.Next? && mode == Exact ==> r.pos == 2 + input[1] as int
    ensures r.Stop? ==> r.pos == |input|
  {
    var hello := Read(input, 0, 2);
    if |hello| < 2 then Stop(|hello|) else ReadAll(input, 2, hello[1], mode)
  }

  /** The address that follows the request header, by address type: four
      octets (`inet_ntoa` fails unless it gets four), a length byte then that
      many bytes of strict UTF-8 (indexing an empty read fails), or sixteen
      octets (`inet_ntop` fails unless it gets sixteen). Any other type fails
      without reading. */
  function AddressAt(input: seq<byte>, at: nat, atyp: byte, mode: ReadMode): (r: Step<Address>)
    requires at <= |input|
    ensures at <= r.pos <= |input|
    ensures atyp !in {1, 3, 4} ==> r == Stop(at)
    ensures r.Next? ==> ValidAddress(r.value) && Textual(r.value) && AddressType(r.value) == atyp
    ensures r.Next? && mode == Exact ==> input[at..r.pos] == AddressBytes(r.value)
  {
    if atyp == 1 then
      var raw := Read(input, at, 4);
      if |raw| < 4 then Stop(at + |raw|) else Next(IPv4(raw), at + 4)
    else if atyp == 3 then DomainAt(input, at, mode)
    else if atyp == 4 then
      var raw := Read(input, at, 16);
      if |raw| < 16 then Stop(at + |raw|) else Next(IPv6(raw), at + 16)
    else Stop(at)
  }

  /** A domain name: its length byte, then that many bytes, which must be
      UTF-8 for `.decode()` to succeed. */
  function DomainAt(input: seq<byte>, at: nat, mode: ReadMode): (r: Step<Address>)
    requires at <= |input|
    ensures at <= r.pos <= |input|
    ensures r.Next? ==> r.value.DomainName? && |r.value.name| < 0x100 && Decode(r.value.name).Some?
    ensures r.Next? && mode == Exact ==> input[at..r.pos] == [|r.value.name|] + r.value.name
  {
    var len := Read(input, at, 1);
    if |len| < 1 then Stop(at)
    else
      match ReadAll(input, at + 1, len[0], mode)
      case Stop(q) => Stop(q)
      case Next(name, q) =>
        if Decode(name).None? then Stop(q)
        else
          assert mode == Exact ==> input[at..q] == len + name;
          Next(DomainName(name), q)
  }

  /** The two port bytes after the address, read big-endian. */
  function PortAt(input: seq<byte>, q: nat, addr: Address, mode: ReadMode): (o: Outcome)
    requires q <= |input|
    ensures o.Rejected? ==> o.greeted && o.consumed == |input|
    ensures q <= o.consumed <= |input|
    ensures o.Accepted? ==> o.addr == addr && o.port < 0x10000
  {
    match ReadAll(input, q, 2, mode)
    case Stop(e) => Rejected(true, e)
    case Next(portBytes, e) =>
      assert Pow256(|portBytes|) <= 0x10000 by {
        assert Pow256(0) == 1 && Pow256(1) == 0x100 && Pow256(2) == 0x10000;
      }
      Accepted(addr, BigEndian(portBytes), e)
  }

  /** The request after the greeting reply, from position `p`: a complete
      header with version 5 and command CONNECT (the reserved byte is not
      looked at), the address, the port. */
  function RequestAt(input: seq<byte>, p: nat, mode: ReadMode): (o: Outcome)
    requires p <= |input|
    ensures o.Rejected? ==> o.greeted
    ensures p <= o.consumed <= |input|
    ensures o.Accepted? ==> ValidAddress(o.addr) && Textual(o.addr) && o.port < 0x10000
  {
    var header := Read(input, p, 4);
    if |header| < 4 || header[0] != 5 || header[1] != 1 then Rejected(true, p + |header|)
    else
      match AddressAt(input, p + 4, header[3], mode)
      case Stop(q) => Rejected(true, q)
      case Next(addr, q) => PortAt(input, q, addr, mode)
  }

  /** `run` up to the success reply, on everything the client sends. */
  function ParseSession(input: seq<byte>, mode: ReadMode): (o: Outcome)
    ensures o.consumed <= |input|
    ensures o.Accepted? ==> ValidAddress(o.addr) && Textual(o.addr) && o.port < 0x10000
  {
    match GreetingAt(input, mode)
    case Stop(p) => Rejected(false, p)
    case Next(_, p) => RequestAt(input, p, mode)
  }

  /** The session with every read checked for length. */
  function Session(input: seq<byte>): Outcome {
    ParseSession(input, Exact)
  }

  /** The session as the handler computes it. */
  function SessionAsWritten(input: seq<byte>): Outcome {
    ParseSession(input, Truncating)
  }

  /** The 10-byte success reply: version 5, succeeded, IPv4, bound address
      and port all zero. */
  const SuccessReply: seq<byte> := [5, 0, 0, 1, 0, 0, 0, 0, 0, 0]

  /** All the handler writes to the client before relaying: nothing, or the
      greeting answer `05 00` first; the 10-byte success reply follows it
      exactly when the request is accepted. */
  function Replies(o: Outcome): seq<byte> {
    match o
    case Rejected(greeted, _) => if greeted then [5, 0] else []
    case Accepted(_, _, _) => [5, 0] + SuccessReply
  }

  /** The target line `f"{addr}:{port}\n".encode()`: it ends with a line feed,
      and it holds no earlier line feed exactly when the host holds none. */
  function TargetLine(host: string, port: nat): (line: seq<byte>)
    ensures line != [] && line[|line| - 1] == NL
    ensures (NL in line[..|line| - 1]) <==> '\n' in host
  {
    var text := host + [':'] + Decimal(port);
    EncodeConcat(text, "\n");
    assert Encode("\n") == [NL];
    var line := Encode(text) + [NL];
    assert line[..|line| - 1] == Encode(text);
    EncodeConcat(host, [':'] + Decimal(port));
    assert host + ([':'] + Decimal(port)) == text;
    EncodeAscii(host, '\n');
    EncodeAscii([':'] + Decimal(port), '\n');
    assert '\n' !in [':'] + Decimal(port) by {
      var s := [':'] + Decimal(port);
      assert forall i :: 1 <= i < |s| ==> s[i] == Decimal(port)[i - 1];
    }
    line
  }

  // ---------------------------------------------------------------------------
  // The client's side of RFC 1928, as a reference encoder

  /** A greeting followed by a CONNECT request, field by field. */
  datatype Request = Request(version: byte, methods: seq<byte>, reserved: byte, addr: Address, port: nat)

  predicate WellFormed(r: Request) {
    |r.methods| < 0x100 && ValidAddress(r.addr) && r.port < 0x10000
  }

  function PortBytes(port: nat): seq<byte>
    requires port < 0x10000
  {
    [port / 0x100, port % 0x100]
  }

  /** The bytes a SOCKS5 client sends for `r`: greeting (section 3 of RFC
      1928), then the request (section 4) with a CONNECT command. */
  function EncodeRequest(r: Request): seq<byte>
    requires WellFormed(r)
  {
    [r.version, |r.methods|] + r.methods
      + [5, 1, r.reserved, AddressType(r.addr)] + AddressBytes(r.addr)
      + PortBytes(r.port)
  }

  // ---------------------------------------------------------------------------
  // Properties of the session

  /** Every well-formed request is decoded to the address and port it
      carries, whatever follows it, and the whole request and nothing more is
      consumed; a domain that is not UTF-8 is refused after the greeting
      reply, before the port is read. */
  lemma SessionDecodesRequest(r: Request, rest: seq<byte>)
    requires WellFormed(r)
    ensures var n := |EncodeRequest(r)|;
      Session(EncodeRequest(r) + rest) ==
        if Textual(r.addr) then Accepted(r.addr, r.port, n) else Rejected(true, n - 2)
  {
    var input := EncodeRequest(r) + rest;
    var header: seq<byte> := [5, 1, r.reserved, AddressType(r.addr)];
    var tail := header + AddressBytes(r.addr) + PortBytes(r.port) + rest;
    assert input == [r.version, |r.methods|] + r.methods + tail;
    GreetingDecoded(input, r.version, r.methods, tail, Exact);
    RequestDecoded(input, 2 + |r.methods|, r.reserved, r.addr, r.port, rest, Exact);
  }

  /** A complete greeting is read as the methods it offers. */
  lemma GreetingDecoded(input: seq<byte>, version: byte, methods: seq<byte>, tail: seq<byte>, mode: ReadMode)
    requires |methods| < 0x100 && input == [version, |methods|] + methods + tail
    ensures GreetingAt(input, mode) == Next(methods, 2 + |methods|)
  {
    assert Read(input, 0, 2) == [version, |methods|];
    assert input[2..] == methods + tail;
    assert Read(input, 2, |methods|) == methods;
  }

  /** A complete CONNECT request is read as its address and port, unless the
      address is a name that is not UTF-8. */
  lemma RequestDecoded(input: seq<byte>, p: nat, reserved: byte, a: Address, port: nat, rest: seq<byte>, mode: ReadMode)
    requires ValidAddress(a) && port < 0x10000 && p <= |input|
    requires input[p..] == [5, 1, reserved, AddressType(a)] + AddressBytes(a) + PortBytes(port) + rest
    ensures var end := p + 4 + |AddressBytes(a)|;
      RequestAt(input, p, mode) == if Textual(a) then Accepted(a, port, end + 2) else Rejected(true, end)
  {
    var ab, pb := AddressBytes(a), PortBytes(port);
    var header: seq<byte> := [5, 1, reserved, AddressType(a)];
    Regroup(header, ab, pb, rest);
    HeaderDecoded(input, p, header, ab + (pb + rest));
    assert input[p] == 5 && input[p + 1] == 1 && input[p + 3] == AddressType(a) by {
      assert input[p..p + 4] == header;
    }
    AddressAndPortDecoded(input, p, a, port, rest, mode);
  }

  /** After a CONNECT header, an address field and two port bytes are read
      back as the address and the port, unless the address is a name that is
      not UTF-8. */
  lemma AddressAndPortDecoded(input: seq<byte>, p: nat, a: Address, port: nat, rest: seq<byte>, mode: ReadMode)
    requires ValidAddress(a) && port < 0x10000 && p + 4 <= |input|
    requires input[p] == 5 && input[p + 1] == 1 && input[p + 3] == AddressType(a)
    requires input[p + 4..] == AddressBytes(a) + (PortBytes(port) + rest)
    ensures var end := p + 4 + |AddressBytes(a)|;
      RequestAt(input, p, mode) == if Textual(a) then Accepted(a, port, end + 2) else Rejected(true, end)
  {
    var ab, pb := AddressBytes(a), PortBytes(port);
    AddressDecoded(input, p + 4, a, pb + rest, mode);
    AddressThenPort(input, p, AddressType(a), mode);
    if Textual(a) {
      HeaderDecoded(input, p + 4, ab, pb + rest);
      PortDecoded(input, p + 4 + |ab|, a, port, rest, mode);
    }
  }

  lemma Regroup(a: seq<byte>, b: seq<byte>, c: seq<byte>, d: seq<byte>)
    ensures a + b + c + d == a + (b + (c + d))
  {
  }

  /** After a CONNECT header, the address decides whether the port is read. */
  lemma AddressThenPort(input: seq<byte>, p: nat, atyp: byte, mode: ReadMode)
    requires p + 4 <= |input| && input[p] == 5 && input[p + 1] == 1 && input[p + 3] == atyp
    ensures RequestAt(input, p, mode) ==
      match AddressAt(input, p + 4, atyp, mode)
      case Stop(q) => Rejected(true, q)
      case Next(addr, q) => PortAt(input, q, addr, mode)
  {
    assert Read(input, p, 4) == input[p..p + 4];
  }

  /** A field at position `p` is read back by `recv`, and what follows it
      starts right after it. */
  lemma HeaderDecoded(input: seq<byte>, p: nat, field: seq<byte>, tail: seq<byte>)
    requires p <= |input| && input[p..] == field + tail
    ensures Read(input, p, |field|) == field && input[p + |field|..] == tail
  {
    assert input[p + |field|..] == input[p..][|field|..];
  }

  /** An address field is read back as its address. */
  lemma AddressDecoded(input: seq<byte>, at: nat, a: Address, tail: seq<byte>, mode: ReadMode)
    requires ValidAddress(a) && at <= |input| && input[at..] == AddressBytes(a) + tail
    ensures var end := at + |AddressBytes(a)|;
      AddressAt(input, at, AddressType(a), mode) == if Textual(a) then Next(a, end) else Stop(end)
  {
    match a {
      case IPv4(octets) =>
        assert Read(input, at, 4) == octets;
      case DomainName(name) =>
        assert input[at..] == [|name|] + (name + tail);
        assert input[at + 1..] == input[at..][1..];
        DomainDecoded(input, at, name, tail, mode);
      case IPv6(octets) =>
        assert Read(input, at, 16) == octets;
    }
  }

  /** A length byte and the name after it are read back as the name. */
  lemma DomainDecoded(input: seq<byte>, at: nat, name: seq<byte>, tail: seq<byte>, mode: ReadMode)
    requires |name| < 0x100 && at < |input| && input[at] as int == |name| && input[at + 1..] == name + tail
    ensures var end := at + 1 + |name|;
      AddressAt(input, at, 3, mode) == if Decode(name).Some? then Next(DomainName(name), end) else Stop(end)
  {
    assert Read(input, at, 1) == [input[at]];
    assert Read(input, at + 1, |name|) == name;
  }

  /** The two port bytes are read back as the port. */
  lemma PortDecoded(input: seq<byte>, q: nat, a: Address, port: nat, tail: seq<byte>, mode: ReadMode)
    requires port < 0x10000 && q <= |input| && input[q..] == PortBytes(port) + tail
    ensures PortAt(input, q, a, mode) == Accepted(a, port, q + 2)
  {
    assert Read(input, q, 2) == PortBytes(port);
    assert BigEndian(PortBytes(port)) == port;
  }

  /** Conversely, whatever `Session` accepts is, up to the bytes it consumed,
      the encoding of a well-formed request for the address and port accepted. */
  lemma AcceptedIsRequest(input: seq<byte>)
    requires Session(input).Accepted?
    ensures exists r ::
      (WellFormed(r) && r.addr == Session(input).addr && r.port == Session(input).port
       && EncodeRequest(r) == input[..Session(input).consumed])
  {
    var o := Session(input);
    var g := GreetingAt(input, Exact);
    var p := g.pos;
    assert o == RequestAt(input, p, Exact);
    GreetingRead(input);
    var reserved := RequestRead(input, p);
    var r := Request(input[0], g.value, reserved, o.addr, o.port);
    EncodedPrefix(input, r, p, o.consumed);
  }

  /** Greeting bytes the session accepts are the version, the method count
      and the methods. */
  lemma GreetingRead(input: seq<byte>)
    requires GreetingAt(input, Exact).Next?
    ensures var g := GreetingAt(input, Exact);
      |g.value| < 0x100 && input[..g.pos] == [input[0], |g.value|] + g.value
  {
    var g := GreetingAt(input, Exact);
    SplitAt(input, 2, g.pos);
    assert input[..2] == [input[0], input[1]];
  }

  /** A prefix made of a greeting and a request field by field is the
      encoding of that request. */
  lemma EncodedPrefix(input: seq<byte>, r: Request, p: nat, c: nat)
    requires WellFormed(r) && p <= c <= |input|
    requires input[..p] == [r.version, |r.methods|] + r.methods
    requires input[p..c] == [5, 1, r.reserved, AddressType(r.addr)] + AddressBytes(r.addr) + PortBytes(r.port)
    ensures EncodeRequest(r) == input[..c]
  {
    SplitAt(input, p, c);
  }

  /** A request the session accepts is, up to the bytes it consumed, the
      encoding of a CONNECT request for the address and port accepted. */
  lemma RequestRead(input: seq<byte>, p: nat) returns (reserved: byte)
    requires p <= |input| && RequestAt(input, p, Exact).Accepted?
    ensures var o := RequestAt(input, p, Exact);
      input[p..o.consumed] == [5, 1, reserved, AddressType(o.addr)] + AddressBytes(o.addr) + PortBytes(o.port)
  {
    var o := RequestAt(input, p, Exact);
    var q, header;
    reserved, q, header := RequestFields(input, p);
    Slices3(input, p, p + 4, q, q + 2, header, AddressBytes(o.addr), PortBytes(o.port));
  }

  /** The header and address fields of a request the session accepts, and
      where its port starts. */
  lemma RequestFields(input: seq<byte>, p: nat) returns (reserved: byte, q: nat, header: seq<byte>)
    requires p <= |input| && RequestAt(input, p, Exact).Accepted?
    ensures var o := RequestAt(input, p, Exact);
      && p + 4 <= q && o.consumed == q + 2 <= |input|
      && header == [5, 1, reserved, AddressType(o.addr)] == input[p..p + 4]
      && input[p + 4..q] == AddressBytes(o.addr)
      && input[q..q + 2] == PortBytes(o.port)
  {
    header := Read(input, p, 4);
    var address := AddressAt(input, p + 4, header[3], Exact);
    q := address.pos;
    reserved := header[2];
    assert header == [5, 1, reserved, AddressType(address.value)] by {
      assert header == [header[0], header[1], header[2], header[3]];
    }
    PortRead(input, q, address.value);
  }

  /** Port bytes the session accepts are the encoding of the port. */
  lemma PortRead(input: seq<byte>, q: nat, a: Address)
    requires q <= |input| && PortAt(input, q, a, Exact).Accepted?
    ensures PortAt(input, q, a, Exact).consumed == q + 2
    ensures input[q..q + 2] == PortBytes(PortAt(input, q, a, Exact).port)
  {
    assert Read(input, q, 2) == input[q..q + 2];
  }

  /** Cutting a prefix of `s` in two. */
  lemma SplitAt(s: seq<byte>, i: nat, j: nat)
    requires i <= j <= |s|
    ensures s[..j] == s[..i] + s[i..j]
  {
    assert s[..j] == s[..i] + s[i..j];
  }

  /** A slice of `s` cut in three known pieces. */
  lemma Slices3(s: seq<byte>, i: nat, j: nat, k: nat, l: nat, a: seq<byte>, b: seq<byte>, c: seq<byte>)
    requires i <= j <= k <= l <= |s|
    requires s[i..j] == a && s[j..k] == b && s[k..l] == c
    ensures s[i..l] == a + b + c
  {
    assert s[i..l] == s[i..j] + s[j..k] + s[k..l];
  }

  /** The greeting is answered with `05 00` exactly when the version byte,
      the method count and that many method bytes arrive; the version and
      the methods offered play no part. */
  lemma GreetingAnswered(input: seq<byte>)
    ensures (Session(input).Accepted? || Session(input).greeted)
        <==> |input| >= 2 && |input| >= 2 + input[1] as int
    ensures Session(input).Rejected? && !Session(input).greeted ==> Session(input).consumed == |input|
  {
    if |input| >= 2 {
      assert Read(input, 0, 2) == input[..2];
    }
  }

  /** The version byte of the greeting, the methods offered and the reserved
      byte of the request are never examined: changing any of them leaves
      the session as it was, in either reading mode. */
  lemma IgnoredBytes(input: seq<byte>, i: nat, x: byte, mode: ReadMode)
    requires |input| >= 2 && i < |input|
    requires i == 0 || 2 <= i < 2 + input[1] as int || i == 2 + input[1] as int + 2
    ensures ParseSession(input[i := x], mode) == ParseSession(input, mode)
  {
    var other := input[i := x];
    SameGreetingLength(input, i, x, mode);
    var h := GreetingAt(input, mode);
    if h.Next? {
      var pos := h.pos;
      if i < pos {
        assert other[pos..] == input[pos..];
        RequestAtFrame(other, input, pos, mode);
      } else {
        assert i == pos + 2;
        ReservedIgnored(input, pos, x, mode);
      }
    }
  }

  /** Changing the version byte or a method byte leaves the greeting's
      length, and whether it is complete, as it was. */
  lemma SameGreetingLength(input: seq<byte>, i: nat, x: byte, mode: ReadMode)
    requires |input| >= 2 && i < |input| && i != 1
    ensures var g, h := GreetingAt(input[i := x], mode), GreetingAt(input, mode);
      g.pos == h.pos && g.Next? == h.Next?
  {
    assert Read(input[i := x], 0, 2)[1] == Read(input, 0, 2)[1];
  }

  /** The reserved byte of the request is not looked at. */
  lemma ReservedIgnored(input: seq<byte>, p: nat, x: byte, mode: ReadMode)
    requires p + 2 < |input|
    ensures RequestAt(input[p + 2 := x], p, mode) == RequestAt(input, p, mode)
  {
    var other := input[p + 2 := x];
    if p + 4 <= |input| {
      var atyp := input[p + 3];
      assert other[p + 4..] == input[p + 4..];
      assert other[p] == input[p] && other[p + 1] == input[p + 1] && other[p + 3] == atyp;
      if input[p] == 5 && input[p + 1] == 1 {
        AddressThenPort(input, p, atyp, mode);
        AddressThenPort(other, p, atyp, mode);
        AddressAtFrame(other, input, p + 4, atyp, mode);
        var r := AddressAt(input, p + 4, atyp, mode);
        if r.Next? {
          assert other[r.pos..] == input[r.pos..];
          PortAtFrame(other, input, r.pos, r.value, mode);
        }
      } else {
        assert Read(other, p, 4)[0] == input[p] && Read(other, p, 4)[1] == input[p + 1];
      }
    }
  }

  /** The port is read from the bytes at and after its start only. */
  lemma PortAtFrame(a: seq<byte>, b: seq<byte>, q: nat, addr: Address, mode: ReadMode)
    requires q <= |a| && q <= |b| && a[q..] == b[q..]
    ensures PortAt(a, q, addr, mode) == PortAt(b, q, addr, mode)
  {
    assert |a| == |b|;
    assert Read(a, q, 2) == Read(b, q, 2);
  }

  /** A request is read from the bytes at and after its start only. */
  lemma RequestAtFrame(a: seq<byte>, b: seq<byte>, p: nat, mode: ReadMode)
    requires p <= |a| && p <= |b| && a[p..] == b[p..]
    ensures RequestAt(a, p, mode) == RequestAt(b, p, mode)
  {
    if p + 4 <= |a| {
      assert a[p + 4..] == a[p..][4..];
      AddressAtFrame(a, b, p + 4, a[p + 3], mode);
      var r := AddressAt(a, p + 4, a[p + 3], mode);
      assert a[r.pos..] == a[p..][r.pos - p..];
    }
  }

  /** An address is read from the bytes at and after its start only. */
  lemma AddressAtFrame(a: seq<byte>, b: seq<byte>, at: nat, atyp: byte, mode: ReadMode)
    requires at <= |a| && at <= |b| && a[at..] == b[at..]
    ensures AddressAt(a, at, atyp, mode) == AddressAt(b, at, atyp, mode)
  {
    assert |a| == |b|;
    if at + 1 <= |a| {
      assert a[at + 1..] == a[at..][1..];
    }
  }

  /** A request header that is cut short, or whose version is not 5 or whose
      command is not CONNECT, ends the session after the greeting reply,
      having read at most the four header bytes. */
  lemma BadHeaderRejected(input: seq<byte>)
    requires |input| >= 2 && |input| >= 2 + input[1] as int
    requires var p := 2 + input[1] as int; |input| < p + 4 || input[p] != 5 || input[p + 1] != 1
    ensures Session(input) == Rejected(true, Min(|input|, 2 + input[1] as int + 4))
  {
    assert Read(input, 0, 2) == input[..2];
  }

  /** An address type other than 1, 3 and 4 ends the session after the
      greeting reply, with no address or port byte read. */
  lemma BadAddressTypeRejected(input: seq<byte>)
    requires |input| >= 2 && |input| >= 2 + input[1] as int + 4
    requires var p := 2 + input[1] as int; input[p] == 5 && input[p + 1] == 1 && input[p + 3] !in {1, 3, 4}
    ensures Session(input) == Rejected(true, 2 + input[1] as int + 4)
  {
    assert Read(input, 0, 2) == input[..2];
  }

  /** The handler as written and the length-checked session differ only on a
      client stream that ends in the middle of a request, and never on a
      request that the length-checked session accepts. */
  lemma AsWrittenDiffersOnlyWhenCut(input: seq<byte>)
    ensures SessionAsWritten(input) != Session(input) ==>
      Session(input).Rejected? && Session(input).consumed == |input|
    ensures Session(input).Accepted? ==> SessionAsWritten(input) == Session(input)
  {
    var g := GreetingAt(input, Exact);
    if g.Next? {
      var p := g.pos;
      var header := Read(input, p, 4);
      if |header| == 4 && header[0] == 5 && header[1] == 1 {
        AddressModes(input, p + 4, header[3]);
      }
    }
  }

  /** Reading an address with unchecked lengths only departs from reading it
      with checked lengths when the stream has ended. */
  lemma AddressModes(input: seq<byte>, at: nat, atyp: byte)
    requires at <= |input|
    ensures var e := AddressAt(input, at, atyp, Exact);
      e.Next? ==> AddressAt(input, at, atyp, Truncating) == e
    ensures var e := AddressAt(input, at, atyp, Exact);
      AddressAt(input, at, atyp, Truncating) != e ==> e == Stop(|input|)
  {
  }

  /** Line 30 as written: a greeting announcing two methods but carrying
      one, followed by end of stream, still gets `05 00`. */
  lemma ShortGreetingAnswered()
    ensures SessionAsWritten([5, 2, 0]) == Rejected(true, 3)
    ensures Session([5, 2, 0]) == Rejected(false, 3)
  {
    assert Read([5, 2, 0], 0, 2) == [5, 2];
  }

  /** Line 45 as written: a domain announced as five bytes long but cut after
      one, followed by end of stream, is accepted, with port 0. */
  lemma ShortDomainAccepted()
    ensures SessionAsWritten([5, 1, 0, 5, 1, 0, 3, 5, 0x61]) == Accepted(DomainName([0x61]), 0, 9)
    ensures Session([5, 1, 0, 5, 1, 0, 3, 5, 0x61]) == Rejected(true, 9)
  {
    var input: seq<byte> := [5, 1, 0, 5, 1, 0, 3, 5, 0x61];
    assert Read(input, 0, 2) == [5, 1];
    assert Read(input, 3, 4) == [5, 1, 0, 3];
    assert Read(input, 7, 1) == [5];
    assert Read(input, 8, 5) == [0x61];
    assert Encode("a") == [0x61];
    DecodeEncode("a");
    assert Read(input, 9, 2) == [];
  }

  /** Lines 53-54 as written: an IPv4 request with no port bytes before end of
      stream is accepted, with port 0. */
  lemma MissingPortAccepted()
    ensures SessionAsWritten([5, 1, 0, 5, 1, 0, 1, 127, 0, 0, 1]) == Accepted(IPv4([127, 0, 0, 1]), 0, 11)
    ensures Session([5, 1, 0, 5, 1, 0, 1, 127, 0, 0, 1]) == Rejected(true, 11)
  {
    var input: seq<byte> := [5, 1, 0, 5, 1, 0, 1, 127, 0, 0, 1];
    assert Read(input, 0, 2) == [5, 1];
    assert Read(input, 3, 4) == [5, 1, 0, 1];
    assert Read(input, 7, 4) == [127, 0, 0, 1];
    assert Read(input, 11, 2) == [];
  }

  /** A CONNECT to 127.0.0.1:443 after the greeting `05 01 00`. */
  lemma LoopbackConnect()
    ensures Session([5, 1, 0, 5, 1, 0, 1, 127, 0, 0, 1, 1, 0xBB]) == Accepted(IPv4([127, 0, 0, 1]), 443, 13)
  {
    var input: seq<byte> := [5, 1, 0, 5, 1, 0, 1, 127, 0, 0, 1, 1, 0xBB];
    assert Read(input, 0, 2) == [5, 1];
    assert Read(input, 3, 4) == [5, 1, 0, 1];
    assert Read(input, 7, 4) == [127, 0, 0, 1];
    assert Read(input, 11, 2) == [1, 0xBB];
    assert BigEndian([1, 0xBB]) == 443;
  }

  /** ... and its target is written `127.0.0.1`. */
  lemma LoopbackText()
    ensures HostText(IPv4([127, 0, 0, 1])) == "127.0.0.1"
  {
    assert NatToString(1, 10) == "1";
    assert NatToString(12, 10) == "12";
    assert Decimal(127) == "127";
    assert Decimal(0) == "0";
    assert Decimal(1) == "1";
  }

  // ---------------------------------------------------------------------------
  // The handler

  class ProxyHandler {
    /** The browser's connection. */
    const clientSock: Socket

    constructor (clientSock: Socket)
      ensures this.clientSock == clientSock
    {
      this.clientSock := clientSock;
    }

    /** `run`. `tunnel` is the TLS connection `connect_raw` yields, or null
        when it fails. The session follows `Session`; the client connection
        is closed on every path; nothing reaches the tunnel unless the request
        is accepted, and then the target line comes first, followed by
        everything the client sends after its request, while the client gets
        the two replies followed by everything the tunnel sends. */
    method Run(tunnel: Socket?) returns (outcome: Outcome)
      requires clientSock.Valid() && clientSock.received == 0 && clientSock.sent == [] && clientSock.Writable()
      requires tunnel != null ==>
        && tunnel != clientSock && tunnel.Valid()
        && tunnel.received == 0 && tunnel.sent == [] && tunnel.Writable()
      modifies clientSock, tunnel
      ensures outcome == Session(clientSock.inbound)
      ensures clientSock.closed
      ensures outcome.Rejected? || tunnel == null ==>
        && clientSock.received == outcome.consumed && clientSock.sent == Replies(outcome)
        && !clientSock.writeShut && (tunnel != null ==> unchanged(tunnel))
      ensures outcome.Accepted? && tunnel != null ==>
        && tunnel.sent == TargetLine(HostText(outcome.addr), outcome.port) + clientSock.inbound[outcome.consumed..]
        && clientSock.sent == Replies(outcome) + tunnel.inbound
        && clientSock.received == |clientSock.inbound| && tunnel.received == |tunnel.inbound|
        && clientSock.writeShut && tunnel.writeShut && tunnel.closed
    {
      outcome := Negotiate();
      assert clientSock.sent == Replies(outcome);
      Conclude(outcome, tunnel);
    }

    /** The steps of `run` after the success reply, or after a refusal: the
        client connection is closed, and the tunnel used only when the
        request was accepted. */
    method Conclude(outcome: Outcome, tunnel: Socket?)
      requires clientSock.Valid() && clientSock.Writable()
      requires outcome.Accepted? ==> ValidAddress(outcome.addr) && Textual(outcome.addr)
      requires tunnel != null ==>
        && tunnel != clientSock && tunnel.Valid()
        && tunnel.received == 0 && tunnel.sent == [] && tunnel.Writable()
      modifies clientSock, tunnel
      ensures clientSock.closed
      ensures outcome.Rejected? || tunnel == null ==>
        && clientSock.received == old(clientSock.received) && clientSock.sent == old(clientSock.sent)
        && clientSock.writeShut == old(clientSock.writeShut) && (tunnel != null ==> unchanged(tunnel))
      ensures outcome.Accepted? && tunnel != null ==>
        && tunnel.sent == TargetLine(HostText(outcome.addr), outcome.port) + old(clientSock.Pending())
        && clientSock.sent == old(clientSock.sent) + tunnel.inbound
        && clientSock.received == |clientSock.inbound| && tunnel.received == |tunnel.inbound|
        && clientSock.writeShut && tunnel.writeShut && tunnel.closed
    {
      if outcome.Rejected? || tunnel == null {
        clientSock.Close();
        return;
      }
      Forward(tunnel, TargetLine(HostText(outcome.addr), outcome.port));
    }

    /** The steps of `run` once the tunnel is open: the target line, the
        relay in both directions, then both connections closed. The tunnel
        carries the line followed by all the client has not yet sent, the
        client gets everything the tunnel sends. */
    method Forward(tunnel: Socket, line: seq<byte>)
      requires tunnel != clientSock && clientSock.Valid() && tunnel.Valid()
      requires clientSock.Writable() && tunnel.Writable() && tunnel.received == 0 && tunnel.sent == []
      modifies clientSock, tunnel
      ensures tunnel.sent == line + old(clientSock.Pending())
      ensures clientSock.sent == old(clientSock.sent) + tunnel.inbound
      ensures clientSock.received == |clientSock.inbound| && tunnel.received == |tunnel.inbound|
      ensures clientSock.writeShut && tunnel.writeShut && tunnel.closed && clientSock.closed
    {
      var _ := tunnel.SendAll(line);
      Relay.Relay(clientSock, tunnel);
      tunnel.Close();
      clientSock.Close();
    }

    /** Greeting, request and success reply: the steps of `run` before the
        tunnel is opened. */
    method Negotiate() returns (outcome: Outcome)
      requires clientSock.Valid() && clientSock.received == 0 && clientSock.Writable()
      modifies clientSock`received, clientSock`sent, clientSock`writes
      ensures clientSock.Valid()
      ensures outcome == Session(clientSock.inbound)
      ensures clientSock.received == outcome.consumed
      ensures clientSock.sent == old(clientSock.sent) + Replies(outcome)
    {
      var greeting := ReadGreeting();
      if greeting.Stop? {
        return Rejected(false, greeting.pos);
      }
      var _ := clientSock.SendAll([5, 0]);
      outcome := ReadRequest();
    }

    /** Version, method count and the methods, read as `GreetingAt` reads
        them with every read checked for length. */
    method ReadGreeting() returns (greeting: Step<seq<byte>>)
      requires clientSock.Valid() && clientSock.received == 0 && !clientSock.closed
      modifies clientSock`received
      ensures clientSock.Valid()
      ensures greeting == GreetingAt(clientSock.inbound, Exact)
      ensures clientSock.received == greeting.pos
    {
      var hello, _ := clientSock.Recv(2);
      if |hello| < 2 {
        return Stop(|hello|);
      }
      var methods, _ := clientSock.Recv(hello[1]);
      if |methods| < hello[1] {
        return Stop(clientSock.received);
      }
      return Next(methods, clientSock.received);
    }

    /** Header, address, port and success reply, read as `RequestAt` reads
        them with every read checked for length. */
    method ReadRequest() returns (outcome: Outcome)
      requires clientSock.Valid() && clientSock.Writable()
      modifies clientSock`received, clientSock`sent, clientSock`writes
      ensures clientSock.Valid()
      ensures outcome == RequestAt(clientSock.inbound, old(clientSock.received), Exact)
      ensures clientSock.received == outcome.consumed
      ensures clientSock.sent == old(clientSock.sent) + (if outcome.Accepted? then SuccessReply else [])
    {
      var header, _ := clientSock.Recv(4);
      if |header| < 4 || header[0] != 5 || header[1] != 1 {
        return Rejected(true, clientSock.received);
      }
      var address := ReadAddress(header[3]);
      if address.Stop? {
        return Rejected(true, address.pos);
      }
      var portBytes, _ := clientSock.Recv(2);
      if |portBytes| < 2 {
        return Rejected(true, clientSock.received);
      }
      var _ := clientSock.SendAll(SuccessReply);
      outcome := Accepted(address.value, BigEndian(portBytes), clientSock.received);
    }

    /** The address of type `atyp` at the current position, read as
        `AddressAt` reads it with every read checked for length. */
    method ReadAddress(atyp: byte) returns (address: Step<Address>)
      requires clientSock.Valid() && !clientSock.closed
      modifies clientSock`received
      ensures clientSock.Valid()
      ensures address == AddressAt(clientSock.inbound, old(clientSock.received), atyp, Exact)
      ensures clientSock.received == address.pos
    {
      ghost var at := clientSock.received;
      if atyp == 1 {
        var raw, _ := clientSock.Recv(4);
        address := if |raw| < 4 then Stop(clientSock.received) else Next(IPv4(raw), clientSock.received);
      } else if atyp == 3 {
        var len, _ := clientSock.Recv(1);
        if |len| < 1 {
          return Stop(clientSock.received);
        }
        var name, _ := clientSock.Recv(len[0]);
        assert name == Read(clientSock.inbound, at + 1, len[0]);
        if |name| < len[0] {
          return Stop(clientSock.received);
        }
        address := if Decode(name).None? then Stop(clientSock.received) else Next(DomainName(name), clientSock.received);
      } else if atyp == 4 {
        var raw, _ := clientSock.Recv(16);
        address := if |raw| < 16 then Stop(clientSock.received) else Next(IPv6(raw), clientSock.received);
      } else {
        address := Stop(clientSock.received);
      }
    }
  }
}

=== FILE: text.dfy ===
/** The few text operations the tunnel's target line goes through: Python's
    `str.strip()`, `str.split(sep)`, `sep in s`, `str(n)` for the port and
    `int(s)` for the port text, and the decimal and lower-case hexadecimal
    formatting the C library's `inet_ntoa`/`inet_ntop` does for an address
    octet or an IPv6 group. */
module Text {
  import opened Wrappers

  /** Python's `str.isspace()`: the characters `strip()` discards. */
  predicate IsSpace(c: char) {
    var n := c as int;
    || n == 0x20 || 0x09 <= n <= 0x0D || 0x1C <= n <= 0x1F
    || n == 0x85 || n == 0xA0 || n == 0x1680 || 0x2000 <= n <= 0x200A
    || n == 0x2028 || n == 0x2029 || n == 0x202F || n == 0x205F || n == 0x3000
  }

  predicate IsDigit(c: char) { '0' <= c <= '9' }

  /** Number of occurrences of `c` in `s`. */
  function Count(s: string, c: char): (k: nat)
    ensures k <= |s|
    ensures k == 0 <==> c !in s
  {
    if s == [] then 0 else (if s[0] == c then 1 else 0) + Count(s[1..], c)
  }

  lemma {:induction false} CountConcat(a: string, b: string, c: char)
    ensures Count(a + b, c) == Count(a, c) + Count(b, c)
  {
    if a == [] {
      assert a + b == b;
    } else {
      assert (a + b)[1..] == a[1..] + b;
      CountConcat(a[1..], b, c);
    }
  }

  // ---------------------------------------------------------------------------
  // str.strip() and the white space int() discards

  /** The two white-space sets in play: `str.strip()` drops every character
      for which `str.isspace()` holds, while `int()` drops only ASCII
      `" \t\n\v\f\r"` and the non-ASCII `isspace()` characters, so the ASCII
      separators U+001C..U+001F are blank to the first and not to the second. */
  datatype Blanks = StripBlanks | IntBlanks

  predicate IsBlank(b: Blanks, c: char) {
    match b
    case StripBlanks => IsSpace(c)
    case IntBlanks => c == ' ' || '\t' <= c <= '\r' || (c as int >= 0x80 && IsSpace(c))
  }

  predicate AllBlank(b: Blanks, t: string) {
    forall i :: 0 <= i < |t| ==> IsBlank(b, t[i])
  }

  /** The number of blanks `s` starts with. */
  function Lead(s: string, b: Blanks): (n: nat)
    ensures n <= |s|
    ensures forall i {:trigger IsBlank(b, s[i])} :: 0 <= i < n ==> IsBlank(b, s[i])
    ensures n < |s| ==> !IsBlank(b, s[n])
  {
    if s != [] && IsBlank(b, s[0]) then 1 + Lead(s[1..], b) else 0
  }

  /** The number of blanks `s` ends with. */
  function Trail(s: string, b: Blanks): (n: nat)
    ensures n <= |s|
    ensures forall i {:trigger IsBlank(b, s[i])} :: |s| - n <= i < |s| ==> IsBlank(b, s[i])
    ensures n < |s| ==> !IsBlank(b, s[|s| - n - 1])
  {
    if s != [] && IsBlank(b, s[|s| - 1]) then 1 + Trail(s[..|s| - 1], b) else 0
  }

  /** Drops the blanks at both ends, as CPython's `strip` does: the slice
      between the first and the last character that is not blank. The result
      neither starts nor ends with a blank and keeps every character that is
      not blank (`TrimInfix` says where it sits in `s`). */
  function Trim(s: string, b: Blanks): (r: string)
    ensures |r| <= |s|
    ensures r == [] || (!IsBlank(b, r[0]) && !IsBlank(b, r[|r| - 1]))
    ensures forall c {:trigger Count(r, c)} :: !IsBlank(b, c) ==> Count(r, c) == Count(s, c)
  {
    var i := Lead(s, b);
    if i == |s| then
      TrimKeeps(s, b, s, [], []);
      []
    else
      var j := |s| - Trail(s, b);
      LeadBeforeTrail(s, b);
      Parts(s, i, j);
      TrimKeeps(s, b, s[..i], s[i..j], s[j..]);
      s[i..j]
  }

  /** A text that is not all blank has its leading blanks before its
      trailing ones. */
  lemma LeadBeforeTrail(s: string, b: Blanks)
    requires Lead(s, b) < |s|
    ensures Lead(s, b) < |s| - Trail(s, b)
  {
  }

  lemma Parts(s: string, i: nat, j: nat)
    requires i <= j <= |s|
    ensures s == s[..i] + s[i..j] + s[j..]
  {
    assert s[..j] == s[..i] + s[i..j];
  }

  /** Cutting blanks off both ends keeps the count of every character that
      is not blank. */
  lemma TrimKeeps(s: string, b: Blanks, pre: string, r: string, post: string)
    requires s == pre + r + post && AllBlank(b, pre) && AllBlank(b, post)
    ensures forall c {:trigger Count(r, c)} :: !IsBlank(b, c) ==> Count(r, c) == Count(s, c)
  {
    forall c | !IsBlank(b, c) ensures Count(r, c) == Count(s, c) {
      CountConcat(pre + r, post, c);
      CountConcat(pre, r, c);
      assert c !in pre && c !in post;
    }
  }

  /** Trimming removes blanks only, and only at the ends: `s` is `k` blanks,
      the trimmed text, then blanks again, where `k` is the number of
      leading blanks. */
  lemma TrimInfix(s: string, b: Blanks)
    ensures Lead(s, b) + |Trim(s, b)| <= |s|
    ensures Trim(s, b) == s[Lead(s, b)..Lead(s, b) + |Trim(s, b)|]
    ensures AllBlank(b, s[..Lead(s, b)]) && AllBlank(b, s[Lead(s, b) + |Trim(s, b)|..])
  {
    if Lead(s, b) < |s| {
      TrimSlice(s, b);
    } else {
      TrimAllBlank(s, b);
    }
  }

  lemma TrimSlice(s: string, b: Blanks)
    requires Lead(s, b) < |s|
    ensures Lead(s, b) + |Trim(s, b)| <= |s|
    ensures Trim(s, b) == s[Lead(s, b)..Lead(s, b) + |Trim(s, b)|]
    ensures AllBlank(b, s[..Lead(s, b)]) && AllBlank(b, s[Lead(s, b) + |Trim(s, b)|..])
  {
    TrimIsSlice(s, b);
    BlankEnds(s, b, Lead(s, b), |s| - Trail(s, b), Trim(s, b));
  }

  lemma TrimIsSlice(s: string, b: Blanks)
    requires Lead(s, b) < |s|
    ensures Lead(s, b) < |s| - Trail(s, b)
    ensures Trim(s, b) == s[Lead(s, b)..|s| - Trail(s, b)]
  {
    LeadBeforeTrail(s, b);
  }

  lemma BlankEnds(s: string, b: Blanks, i: nat, j: nat, r: string)
    requires i <= j <= |s| && r == s[i..j]
    requires forall k :: 0 <= k < i ==> IsBlank(b, s[k])
    requires forall k :: j <= k < |s| ==> IsBlank(b, s[k])
    ensures i + |r| <= |s| && r == s[i..i + |r|]
    ensures AllBlank(b, s[..i]) && AllBlank(b, s[i + |r|..])
  {
  }

  lemma TrimAllBlank(s: string, b: Blanks)
    requires Lead(s, b) == |s|
    ensures Lead(s, b) + |Trim(s, b)| <= |s|
    ensures Trim(s, b) == s[Lead(s, b)..Lead(s, b) + |Trim(s, b)|]
    ensures AllBlank(b, s[..Lead(s, b)]) && AllBlank(b, s[Lead(s, b) + |Trim(s, b)|..])
  {
    assert Trim(s, b) == [];
  }

  /** Python's `str.strip()`. */
  function Strip(s: string): string {
    Trim(s, StripBlanks)
  }

  /** A string is left alone by trimming exactly when it has no blank at
      either end. */
  lemma TrimFixpoint(s: string, b: Blanks)
    ensures Trim(s, b) == s <==> (s == [] || (!IsBlank(b, s[0]) && !IsBlank(b, s[|s| - 1])))
  {
    if s != [] && !IsBlank(b, s[0]) && !IsBlank(b, s[|s| - 1]) {
      assert Lead(s, b) == 0 && Trail(s, b) == 0;
      assert s[0..|s|] == s;
    }
  }

  lemma TrimUnchanged(s: string, b: Blanks)
    requires s == [] || (!IsBlank(b, s[0]) && !IsBlank(b, s[|s| - 1]))
    ensures Trim(s, b) == s
  {
    TrimFixpoint(s, b);
  }

  /** `strip()` is idempotent. */
  lemma StripIdempotent(s: string)
    ensures Strip(Strip(s)) == Strip(s)
  {
    TrimUnchanged(Strip(s), StripBlanks);
  }

  // ---------------------------------------------------------------------------
  // str.split(sep) and its inverse sep.join(parts)

  /** `sep.join(parts)`. */
  function Join(parts: seq<string>, sep: char): string {
    if |parts| == 0 then []
    else if |parts| == 1 then parts[0]
    else parts[0] + [sep] + Join(parts[1..], sep)
  }

  /** `s.split(sep)` with a one-character separator: cuts `s` at every
      occurrence of `sep`, so `Count(s, sep) + 1` pieces, none holding `sep`,
      that join back to `s`. */
  function Split(s: string, sep: char): (parts: seq<string>)
    ensures |parts| == Count(s, sep) + 1
    ensures forall i :: 0 <= i < |parts| ==> sep !in parts[i]
    ensures Join(parts, sep) == s
  {
    if s == [] then [[]]
    else
      var rest := Split(s[1..], sep);
      assert s == [s[0]] + s[1..];
      if s[0] == sep then
        [[]] + rest
      else
        assert Join([[s[0]] + rest[0]] + rest[1..], sep) == [s[0]] + Join(rest, sep);
        [[s[0]] + rest[0]] + rest[1..]
  }

  /** Splitting undoes joining pieces that do not hold the separator. */
  lemma {:induction false} SplitJoin(parts: seq<string>, sep: char)
    requires |parts| >= 1
    requires forall i :: 0 <= i < |parts| ==> sep !in parts[i]
    ensures Split(Join(parts, sep), sep) == parts
  {
    if |parts| == 1 {
      SplitNoSep(parts[0], sep);
    } else {
      SplitJoin(parts[1..], sep);
      SplitPrefix(parts[0], Join(parts[1..], sep), sep);
      assert [parts[0]] + parts[1..] == parts;
    }
  }

  lemma {:induction false} SplitNoSep(s: string, sep: char)
    requires sep !in s
    ensures Split(s, sep) == [s]
  {
    if s != [] {
      SplitNoSep(s[1..], sep);
      assert [s[0]] + s[1..] == s;
    }
  }

  lemma {:induction false} SplitPrefix(a: string, b: string, sep: char)
    requires sep !in a
    ensures Split(a + [sep] + b, sep) == [a] + Split(b, sep)
  {
    if a == [] {
      assert [] + [sep] + b == [sep] + b;
      assert ([sep] + b)[1..] == b;
    } else {
      var s := a + [sep] + b;
      assert s[1..] == a[1..] + [sep] + b;
      SplitPrefix(a[1..], b, sep);
      var rest := Split(s[1..], sep);
      assert rest[0] == a[1..] && rest[1..] == Split(b, sep);
      assert Split(s, sep) == [[a[0]] + rest[0]] + rest[1..];
      assert [a[0]] + a[1..] == a;
    }
  }

  // ---------------------------------------------------------------------------
  // Decimal and hexadecimal formatting

  function DigitChar(d: nat): (c: char)
    requires d < 16
  {
    if d < 10 then ('0' as int + d) as char else ('a' as int + d - 10) as char
  }

  /** The value of a digit character, for bases up to 16. */
  function DigitValue(c: char): int {
    if '0' <= c <= '9' then c as int - '0' as int
    else if 'a' <= c <= 'f' then c as int - 'a' as int + 10
    else -1
  }

  /** `n` written in `base` with lower-case digits and no leading zero. */
  function NatToString(n: nat, base: nat): (s: string)
    requires 2 <= base <= 16
    ensures 1 <= |s|
    ensures forall i :: 0 <= i < |s| ==> 0 <= DigitValue(s[i]) < base
    ensures |s| > 1 ==> s[0] != '0'
    decreases n
  {
    if n < base then [DigitChar(n)]
    else
      DivShrinks(n, base);
      NatToString(n / base, base) + [DigitChar(n % base)]
  }

  lemma DivShrinks(n: nat, base: nat)
    requires 2 <= base <= n
    ensures 1 <= n / base < n
  {
  }

  /** `n` in decimal: Python's `str(n)` for the port of the target line, and
      the formatting `inet_ntoa` does for an address octet. */
  function Decimal(n: nat): (s: string)
    ensures forall i :: 0 <= i < |s| ==> IsDigit(s[i])
  {
    NatToString(n, 10)
  }

  /** `n` in lower-case hexadecimal, as `inet_ntop` writes an IPv6 group. */
  function Hex(n: nat): string {
    NatToString(n, 16)
  }

  /** The value of a string of digits in `base`; `'_'` is skipped. */
  function DigitsValue(s: string, base: nat): nat
    requires 2 <= base <= 16
  {
    if s == [] then 0
    else
      var d := DigitValue(s[|s| - 1]);
      if 0 <= d < base then DigitsValue(s[..|s| - 1], base) * base + d
      else DigitsValue(s[..|s| - 1], base)
  }

  /** `NatToString` is read back by `DigitsValue`. */
  lemma {:induction false} NatToStringValue(n: nat, base: nat)
    requires 2 <= base <= 16
    ensures DigitsValue(NatToString(n, base), base) == n
  {
    var s := NatToString(n, base);
    if n < base {
      assert s[..0] == [];
      DigitCharValue(n);
    } else {
      DivShrinks(n, base);
      var q, d := n / base, n % base;
      NatToStringValue(q, base);
      var p := NatToString(q, base);
      assert s == p + [DigitChar(d)];
      assert s[..|s| - 1] == p;
      DigitCharValue(d);
      DigitsValueSnoc(p, DigitChar(d), base);
      DivMod(n, base);
    }
  }

  lemma DivMod(n: nat, base: nat)
    requires 2 <= base
    ensures n == (n / base) * base + n % base
  {
  }

  lemma DigitsValueSnoc(p: string, c: char, base: nat)
    requires 2 <= base <= 16
    requires 0 <= DigitValue(c) < base
    ensures DigitsValue(p + [c], base) == DigitsValue(p, base) * base + DigitValue(c)
  {
    assert (p + [c])[..|p|] == p;
  }

  lemma DigitCharValue(d: nat)
    requires d < 16
    ensures DigitValue(DigitChar(d)) == d
  {
  }

  // ---------------------------------------------------------------------------
  // int(s)

  /** The body of a base-10 literal accepted by `int()`: digits, with single
      underscores allowed between two digits. */
  predicate DigitGroups(s: string) {
    && s != []
    && IsDigit(s[0]) && IsDigit(s[|s| - 1])
    && (forall i :: 0 <= i < |s| ==> IsDigit(s[i]) || s[i] == '_')
    && (forall i, j :: 0 <= i < |s| && 0 <= j < |s| && j == i + 1 && s[i] == '_' ==> IsDigit(s[j]))
  }

  /** Python's `int(s)` on a `str`: surrounding white space, an optional sign,
      then digit groups. Nothing is read from a blank text, and a negative
      value only from a leading minus. */
  function ParseInt(s: string): (r: Option<int>)
    ensures r.Some? ==> Trim(s, IntBlanks) != []
    ensures r.Some? && r.value < 0 ==> Trim(s, IntBlanks)[0] == '-'
  {
    var t := Trim(s, IntBlanks);
    if t == [] then None
    else
      var sign, body := if t[0] == '-' then -1 else 1, if t[0] == '-' || t[0] == '+' then t[1..] else t;
      if DigitGroups(body) then Some(sign * DigitsValue(body, 10)) else None
  }

  /** The shape of a text `int()` accepts: once the blanks `int()` discards
      are trimmed, an optional sign and then digit groups. */
  predicate IntText(s: string, sign: string, body: string) {
    && Trim(s, IntBlanks) == sign + body
    && (sign == [] || sign == ['+'] || sign == ['-'])
    && DigitGroups(body)
  }

  function SignValue(sign: string): int {
    if sign == ['-'] then -1 else 1
  }

  /** `int()` accepts exactly the texts of that shape, and reads each as its
      signed digit value. */
  lemma ParseIntForm(s: string)
    ensures ParseInt(s).Some? <==> exists sign, body :: IntText(s, sign, body)
    ensures forall sign, body :: IntText(s, sign, body) ==>
              ParseInt(s) == Some(SignValue(sign) * DigitsValue(body, 10))
  {
    if ParseInt(s).Some? {
      IntTextOf(s);
    }
    forall sign, body | IntText(s, sign, body)
      ensures ParseInt(s) == Some(SignValue(sign) * DigitsValue(body, 10))
    {
      IntTextRead(s, sign, body);
    }
  }

  lemma IntTextOf(s: string)
    requires ParseInt(s).Some?
    ensures exists sign, body :: IntText(s, sign, body)
  {
    var t := Trim(s, IntBlanks);
    if t[0] == '-' || t[0] == '+' {
      assert t == [t[0]] + t[1..];
      assert IntText(s, [t[0]], t[1..]);
    } else {
      assert t == [] + t;
      assert IntText(s, [], t);
    }
  }

  lemma IntTextRead(s: string, sign: string, body: string)
    requires IntText(s, sign, body)
    ensures ParseInt(s) == Some(SignValue(sign) * DigitsValue(body, 10))
  {
    var t := Trim(s, IntBlanks);
    if sign == [] {
      assert t == body;
    } else {
      assert t[0] == sign[0];
      assert t[1..] == body;
    }
  }

  /** `int()` discards a tab before digit groups, as `strip()` does. */
  lemma TabDropped(d: string)
    requires DigitGroups(d)
    ensures ParseInt(['\t'] + d) == Some(DigitsValue(d, 10))
  {
    BlankDropped('\t', d, IntBlanks);
    assert Trim(['\t'] + d, IntBlanks) == [] + d;
    IntTextRead(['\t'] + d, [], d);
  }

  /** `strip()` discards an ASCII file separator (U+001C) before digit
      groups, but `int()` does not, and refuses the text. */
  lemma SeparatorKept(d: string)
    requires DigitGroups(d)
    ensures Strip(['\U{1C}'] + d) == d
    ensures ParseInt(['\U{1C}'] + d) == None
  {
    BlankDropped('\U{1C}', d, StripBlanks);
    SeparatorRefused(['\U{1C}'] + d);
  }

  lemma SeparatorRefused(s: string)
    requires |s| >= 2 && s[0] == '\U{1C}' && IsDigit(s[|s| - 1])
    ensures ParseInt(s) == None
  {
    TrimUnchanged(s, IntBlanks);
    assert !IsDigit(s[0]);
  }

  /** One blank before a text with no blank at either end is dropped. */
  lemma BlankDropped(c: char, d: string, b: Blanks)
    requires IsBlank(b, c) && d != [] && !IsBlank(b, d[0]) && !IsBlank(b, d[|d| - 1])
    ensures Trim([c] + d, b) == d
  {
    var s := [c] + d;
    assert s[1..] == d;
    assert Lead(d, b) == 0;
    assert Lead(s, b) == 1 && Trail(s, b) == 0;
  }

  /** `int(str(n)) == n`. */
  lemma {:induction false} DecimalRoundTrip(n: nat)
    ensures ParseInt(Decimal(n)) == Some(n)
  {
    DecimalGroups(n);
    DigitsParsed(Decimal(n), n);
  }

  /** `int()` reads digit groups as their value. */
  lemma {:induction false} DigitsParsed(s: string, v: int)
    requires DigitGroups(s) && v == DigitsValue(s, 10)
    ensures ParseInt(s) == Some(v)
  {
    DigitsTrimmed(s);
  }

  lemma DigitsTrimmed(s: string)
    requires s != [] && IsDigit(s[0]) && IsDigit(s[|s| - 1])
    ensures Trim(s, IntBlanks) == s && Strip(s) == s
  {
    TrimUnchanged(s, IntBlanks);
    TrimUnchanged(s, StripBlanks);
  }

  /** A port text is read with its sign: `int("-" + str(n)) == -n`. */
  lemma {:induction false} NegativeRoundTrip(n: nat)
    ensures ParseInt("-" + Decimal(n)) == Some(-(n as int))
  {
    var s := "-" + Decimal(n);
    assert s[1..] == Decimal(n);
    DecimalGroups(n);
    NegativeDigits(s, n);
  }

  /** `int()` reads a minus sign followed by digit groups as the negated
      value of the digits. */
  lemma {:induction false} NegativeDigits(s: string, v: int)
    requires s != [] && s[0] == '-' && DigitGroups(s[1..]) && v == DigitsValue(s[1..], 10)
    ensures ParseInt(s) == Some(-v)
  {
    NegativeTrimmed(s);
    NegativeValue(s, v);
  }

  /** `str(n)` is a valid body for `int()` whose value is `n`. */
  lemma DecimalGroups(n: nat)
    ensures DigitGroups(Decimal(n)) && DigitsValue(Decimal(n), 10) == n
  {
    var d := Decimal(n);
    assert IsDigit(d[0]) && IsDigit(d[|d| - 1]);
    NatToStringValue(n, 10);
  }

  lemma NegativeTrimmed(s: string)
    requires s != [] && s[0] == '-' && DigitGroups(s[1..])
    ensures Trim(s, IntBlanks) == s && Strip(s) == s
  {
    assert s[|s| - 1] == s[1..][|s| - 2];
    TrimUnchanged(s, IntBlanks);
    TrimUnchanged(s, StripBlanks);
  }

  lemma {:induction false} NegativeValue(s: string, v: int)
    requires s != [] && s[0] == '-' && Trim(s, IntBlanks) == s
    requires DigitGroups(s[1..]) && v == DigitsValue(s[1..], 10)
    ensures ParseInt(s) == Some(-v)
  {
  }
}

=== FILE: utf8.dfy ===
/** UTF-8, as Python's `str.encode()` and strict `bytes.decode()` apply it:
    the encoding forms of section 3.9 of the Unicode Standard and the
    well-formed byte sequences of its Table 3-7 (no overlong forms, no
    surrogates, nothing above U+10FFFF). */
module Utf8 {
  import opened Bytes
  import opened Wrappers

  predicate IsContinuation(b: byte) { 0x80 <= b <= 0xBF }

  /** The UTF-8 form of one scalar value: ASCII stands for itself, every
      other character becomes 2 to 4 bytes that are all 0x80 or above. */
  function EncodeChar(c: char): (b: seq<byte>)
    ensures 1 <= |b| <= 4
    ensures c as int < 0x80 ==> b == [c as int]
    ensures c as int >= 0x80 ==> forall i :: 0 <= i < |b| ==> b[i] >= 0x80
  {
    var n := c as int;
    if n < 0x80 then [n]
    else if n < 0x800 then [0xC0 + n / 0x40, 0x80 + n % 0x40]
    else if n < 0x10000 then [0xE0 + n / 0x1000, 0x80 + n / 0x40 % 0x40, 0x80 + n % 0x40]
    else [0xF0 + n / 0x40000, 0x80 + n / 0x1000 % 0x40, 0x80 + n / 0x40 % 0x40, 0x80 + n % 0x40]
  }

  /** `s.encode()`: one to four bytes per character, so never shorter than
      the text and at most four times as long. */
  function Encode(s: string): seq<byte> {
    if s == [] then [] else EncodeChar(s[0]) + Encode(s[1..])
  }

  /** The first character of `b` and the number of bytes it takes, or None
      when `b` does not start with a well-formed sequence of Table 3-7. */
  function DecodeFirst(b: seq<byte>): (r: Option<(char, nat)>)
    requires b != []
    ensures r.Some? ==> 1 <= r.value.1 <= |b| && EncodeChar(r.value.0) == b[..r.value.1]
  {
    var b0 := b[0] as int;
    if b0 < 0x80 then
      Some((b0 as char, 1))
    else if 0xC2 <= b0 <= 0xDF then
      if |b| >= 2 && IsContinuation(b[1]) then Some((Decode2(b0, b[1]), 2)) else None
    else if 0xE0 <= b0 <= 0xEF then
      var lo := if b0 == 0xE0 then 0xA0 else 0x80;
      var hi := if b0 == 0xED then 0x9F else 0xBF;
      if |b| >= 3 && lo <= b[1] <= hi && IsContinuation(b[2]) then
        Some((Decode3(b0, b[1], b[2]), 3))
      else None
    else if 0xF0 <= b0 <= 0xF4 then
      var lo := if b0 == 0xF0 then 0x90 else 0x80;
      var hi := if b0 == 0xF4 then 0x8F else 0xBF;
      if |b| >= 4 && lo <= b[1] <= hi && IsContinuation(b[2]) && IsContinuation(b[3]) then
        Some((Decode4(b0, b[1], b[2], b[3]), 4))
      else None
    else None
  }

  /** The character of a well-formed two-byte sequence. */
  function Decode2(b0: int, b1: int): (c: char)
    requires 0xC2 <= b0 <= 0xDF && 0x80 <= b1 <= 0xBF
    ensures EncodeChar(c) == [b0, b1]
  {
    var n := (b0 - 0xC0) * 0x40 + (b1 - 0x80);
    assert n / 0x40 == b0 - 0xC0 && n % 0x40 == b1 - 0x80;
    n as char
  }

  /** The character of a well-formed three-byte sequence. */
  function Decode3(b0: int, b1: int, b2: int): (c: char)
    requires 0xE0 <= b0 <= 0xEF
    requires (if b0 == 0xE0 then 0xA0 else 0x80) <= b1 <= (if b0 == 0xED then 0x9F else 0xBF)
    requires 0x80 <= b2 <= 0xBF
    ensures EncodeChar(c) == [b0, b1, b2]
  {
    var n := (b0 - 0xE0) * 0x1000 + (b1 - 0x80) * 0x40 + (b2 - 0x80);
    assert n / 0x40 == (b0 - 0xE0) * 0x40 + (b1 - 0x80);
    assert n / 0x1000 == b0 - 0xE0 && n / 0x40 % 0x40 == b1 - 0x80 && n % 0x40 == b2 - 0x80;
    n as char
  }

  /** The character of a well-formed four-byte sequence. */
  function Decode4(b0: int, b1: int, b2: int, b3: int): (c: char)
    requires 0xF0 <= b0 <= 0xF4
    requires (if b0 == 0xF0 then 0x90 else 0x80) <= b1 <= (if b0 == 0xF4 then 0x8F else 0xBF)
    requires 0x80 <= b2 <= 0xBF && 0x80 <= b3 <= 0xBF
    ensures EncodeChar(c) == [b0, b1, b2, b3]
  {
    var n := (b0 - 0xF0) * 0x40000 + (b1 - 0x80) * 0x1000 + (b2 - 0x80) * 0x40 + (b3 - 0x80);
    var high := (b0 - 0xF0) * 0x40 + (b1 - 0x80);
    var mid := high * 0x40 + (b2 - 0x80);
    assert n == mid * 0x40 + (b3 - 0x80);
    assert n / 0x40 == mid && n % 0x40 == b3 - 0x80;
    assert mid % 0x40 == b2 - 0x80;
    assert n / 0x1000 == high;
    assert high % 0x40 == b1 - 0x80;
    assert n / 0x40000 == b0 - 0xF0;
    n as char
  }

  /** Strict `b.decode()`: None where Python raises UnicodeDecodeError.
      Whatever it accepts encodes back to the very same bytes. */
  function Decode(b: seq<byte>): (r: Option<string>)
    ensures r.Some? ==> Encode(r.value) == b
    decreases |b|
  {
    if b == [] then Some([])
    else
      match DecodeFirst(b)
      case None => None
      case Some((c, k)) =>
        match Decode(b[k..])
        case None => None
        case Some(s) =>
          assert ([c] + s)[1..] == s;
          assert b == b[..k] + b[k..];
          Some([c] + s)
  }

  /** One to four bytes per character: the encoding is never shorter than
      the text and at most four times as long. */
  lemma {:induction false} EncodeLength(s: string)
    ensures |s| <= |Encode(s)| <= 4 * |s|
  {
    if s != [] {
      EncodeLength(s[1..]);
    }
  }

  lemma {:induction false} EncodeConcat(a: string, b: string)
    ensures Encode(a + b) == Encode(a) + Encode(b)
  {
    if a == [] {
      assert a + b == b;
    } else {
      assert (a + b)[1..] == a[1..] + b;
      EncodeConcat(a[1..], b);
    }
  }

  /** Decoding the encoding of a character gives it back, whatever follows. */
  lemma DecodeFirstEncodeChar(c: char, rest: seq<byte>)
    ensures DecodeFirst(EncodeChar(c) + rest) == Some((c, |EncodeChar(c)|))
  {
    var n := c as int;
    if n < 0x80 {
    } else if n < 0x800 {
      DecodeTwo(c, rest);
    } else if n < 0x10000 {
      DecodeThree(c, rest);
    } else {
      DecodeFour(c, rest);
    }
  }

  lemma DecodeTwo(c: char, rest: seq<byte>)
    requires 0x80 <= c as int < 0x800
    ensures DecodeFirst(EncodeChar(c) + rest) == Some((c, 2))
  {
    var n := c as int;
    var b := EncodeChar(c) + rest;
    assert b[0] == 0xC0 + n / 0x40 && b[1] == 0x80 + n % 0x40;
    assert (b[0] as int - 0xC0) * 0x40 + (b[1] as int - 0x80) == n;
  }

  lemma DecodeThree(c: char, rest: seq<byte>)
    requires 0x800 <= c as int < 0x10000
    ensures DecodeFirst(EncodeChar(c) + rest) == Some((c, 3))
  {
    var n := c as int;
    var b := EncodeChar(c) + rest;
    var x, y, z := n / 0x1000, n / 0x40 % 0x40, n % 0x40;
    assert n == x * 0x1000 + y * 0x40 + z;
    assert b[0] == 0xE0 + x && b[1] == 0x80 + y && b[2] == 0x80 + z;
    assert x == 0 ==> y >= 0x20;
    assert x == 0xD ==> y < 0x20;
  }

  lemma DecodeFour(c: char, rest: seq<byte>)
    requires 0x10000 <= c as int
    ensures DecodeFirst(EncodeChar(c) + rest) == Some((c, 4))
  {
    var n := c as int;
    var b := EncodeChar(c) + rest;
    var w, x, y, z := n / 0x40000, n / 0x1000 % 0x40, n / 0x40 % 0x40, n % 0x40;
    FourByteParts(n);
    assert b[0] == 0xF0 + w && b[1] == 0x80 + x && b[2] == 0x80 + y && b[3] == 0x80 + z;
  }

  /** The four six-bit (three for the lead) parts of a supplementary scalar
      value, the lead and second of which stay within the ranges of Table 3-7. */
  lemma FourByteParts(n: int)
    requires 0x10000 <= n < 0x110000
    ensures var w, x, y, z := n / 0x40000, n / 0x1000 % 0x40, n / 0x40 % 0x40, n % 0x40;
      && n == w * 0x40000 + x * 0x1000 + y * 0x40 + z
      && 0 <= w <= 4 && 0 <= x < 0x40 && 0 <= y < 0x40 && 0 <= z < 0x40
      && (w == 0 ==> x >= 0x10)
      && (w == 4 ==> x < 0x10)
  {
    var q1, q2 := n / 0x40, n / 0x1000;
    assert n == q1 * 0x40 + n % 0x40;
    assert q1 == q2 * 0x40 + q1 % 0x40;
    assert q2 == n / 0x40000 * 0x40 + q2 % 0x40;
  }

  /** `s.encode().decode() == s`. */
  lemma {:induction false} DecodeEncode(s: string)
    ensures Decode(Encode(s)) == Some(s)
  {
    if s != [] {
      var e := EncodeChar(s[0]);
      DecodeFirstEncodeChar(s[0], Encode(s[1..]));
      assert Encode(s)[|e|..] == Encode(s[1..]);
      DecodeEncode(s[1..]);
      assert [s[0]] + s[1..] == s;
    }
  }

  /** An ASCII byte occurs in the encoding of `s` exactly where its character
      occurs in `s`. */
  lemma {:induction false} EncodeAscii(s: string, c: char)
    requires c as int < 0x80
    ensures (c as int in Encode(s)) <==> c in s
  {
    if s != [] {
      EncodeAscii(s[1..], c);
      assert Encode(s) == EncodeChar(s[0]) + Encode(s[1..]);
      assert s == [s[0]] + s[1..];
    }
  }
}

=== FILE: wrappers.dfy ===
/** Option and Result, the error-carrying results used throughout the model. */
module Wrappers {

  datatype Option<+T> = None | Some(value: T)

  datatype Result<+R, +E> = Success(value: R) | Failure(error: E)
}
